=== FILE: README.md ===
# SkipHotload toggler

A Dafny model of the editor window `SkipHotloadEditorTool`, limited to
the part that decides what happens to files. The window marks
`Component` classes with the `[SkipHotload]` attribute, which keeps them out
of hotloading, or removes that attribute again:

- **ProcessFile** reads one C# file and finds every match of
  `class\s+(\w+)\s*:\s*Component` in it.
  - In add mode it puts the line `[SkipHotload]\n` at the start of a matched
    declaration's line, unless `[SkipHotload]` already occurs anywhere
    before that line.
  - In remove mode it applies `Regex.Replace(content, @"\[SkipHotload\]\s*\n", "")`
    once per match.
  - It writes the file back only when the text changed.
- **The add and remove buttons** (`ProcessAllFiles`) run ProcessFile over
  every listed file in one mode.
- **The auto button** (`ApplyAutoSkipHotload`) removes markers from the
  files in the change set and adds them to all other files.
- **The file watcher callback** (`OnFileChanged`) adds the changed file to
  that set.

## The model, file by file

- `text.dfy` (module `Text`)
  - The regular-expression character classes.
  - .NET `String.LastIndexOf(char, int)`, including its exception, and
    `String.Insert`.
  - The length of a text in UTF-16 code units, in which .NET counts the
    index that decides that exception.
- `class_pattern.dfy` (module `ClassPattern`)
  - The declaration pattern, as a greedy matcher. It is proved equal to a
    declarative description of a match.
  - The left-to-right, non-overlapping scan of `Regex.Matches`. The scan
    is stated once for any pattern (`Scan`) and then used with the
    declaration pattern (`MatchesFrom`).
- `markers.dfy` (module `Markers`)
  - The literal marker test.
  - One Replace pass, proved to delete exactly the characters that lie inside
    a marker run of its input.
  - Repeated passes.
- `toggler.dfy` (module `Toggler`)
  - Specification functions for what a file's text becomes in each mode
    wherever the loop does not throw (`AddMarker`, `RemoveMarkers`,
    `Toggle`). Together they are the corrected form of Findings; the
    program as written is `ToggleAsWritten`.
  - The loop of ProcessFile as a method proved against them
    (`ProcessContent`).
  - ProcessFile as written (`ProcessContentAsWritten`), with the inputs
    on which it throws; see Findings.
- `tool.dfy` (module `HotloadTool`)
  - The file system as a class holding a map from path to content and a log
    of writes.
  - The tool as a class with the file list and the change set.
  - The batch loops, proved against a batch function (`RunBatch`). The
    lemmas about `RunBatch` state what a batch does to the files.
    `RunBatch` and its lemmas take the content transformation as a
    parameter (`edit`). They need nothing of it beyond what a lemma
    requires, such as add mode being idempotent. The transformation
    returns None where ProcessFile throws. The tool itself passes the loop
    as written (`ToggleAsWritten`), which throws on the input of Findings.
    The corrected transformation (`Corrected`) never throws, and the
    lemmas that need a transformation that never throws are stated for it.
- `scenarios.dfy` (module `Scenarios`)
  - Worked examples on concrete texts: the edges of the declaration
    pattern, the input of Findings on one file and in a batch, and a
    nested marker that remove mode does not undo.

Add mode reuses match indices that were found in the original text after
the text has grown. Every later declaration then sees the inserted marker
before its line. So one call inserts at most one marker line, above the
first declaration. `AddMarker` states this first-match form, and
`ProcessContent` proves that the stale-index loop computes exactly that.

## Model

| member | source | states |
|---|---|---|
| Text.LastIndexOf | Editor/SkipHotloadEditorTool.cs:165 | The search for the last line feed at or before an index, with positions of the model's text. The result is None (the .NET exception) exactly when the text is non-empty and the index is at or past its end. Up to the end of the text this is the same exception as `LastIndexOfThrows`, which decides it in UTF-16 code units; past the end only `LastIndexOfThrows` is used. Otherwise it is the last `\n` position, with no `\n` between it and the index, or -1. |
| Text.Utf16Length | Editor/SkipHotloadEditorTool.cs:165 | .NET's Length of a text, in UTF-16 code units: a character above U+FFFF counts twice, so the length lies between the character count and twice it. |
| Text.Utf16Concat | Editor/SkipHotloadEditorTool.cs:165 | The UTF-16 length of two texts joined is the sum of their lengths. |
| Text.Utf16PrefixShorter | Editor/SkipHotloadEditorTool.cs:165 | A proper prefix is shorter in UTF-16 code units too. |
| Text.Utf16Bmp | Editor/SkipHotloadEditorTool.cs:165 | A text without characters above U+FFFF has as many UTF-16 code units as characters. |
| Text.LastIndexOfThrows | Editor/SkipHotloadEditorTool.cs:165 | .NET's range check of `LastIndexOf(char, startIndex)`: it throws ArgumentOutOfRangeException on a non-empty string when the start index, in UTF-16 code units, is at or past the Length. So it throws only past the character count, and always from twice the character count on. |
| Text.InsertAt | Editor/SkipHotloadEditorTool.cs:172-173 | `String.Insert` puts the marker line at the index. Every character of the text is kept, in order, before and after it. |
| Text.InsertUnits | Editor/SkipHotloadEditorTool.cs:172-173 | `String.Insert` adds the inserted text's UTF-16 code units to the text's. |
| ClassPattern.ClassDeclLength | Editor/SkipHotloadEditorTool.cs:158 | The matcher for `class\s+(\w+)\s*:\s*Component` at the start of a text, each run taken greedily. A match it reports is at least 17 characters long, lies inside the text and starts with `c`. |
| ClassPattern.ClassDeclLengthCorrect | Editor/SkipHotloadEditorTool.cs:158 | The greedy matcher answers `n` exactly when the first `n` characters match `class\s+(\w+)\s*:\s*Component` as a whole. Such a match is unique. |
| ClassPattern.DeclChars | Editor/SkipHotloadEditorTool.cs:158 | A match consists of white space, word characters and colons only, so it never contains `[`. |
| ClassPattern.DeclLocal | Editor/SkipHotloadEditorTool.cs:158 | Whether a match starts at a position depends only on the characters it covers. |
| ClassPattern.NoDeclWithoutC | Editor/SkipHotloadEditorTool.cs:158 | A position that does not hold `c` starts no match. |
| ClassPattern.Scan | Editor/SkipHotloadEditorTool.cs:159 | The scan of `Regex.Matches` for any pattern: take the leftmost match from the current position, then resume where it ends; move one position on where none starts. |
| ClassPattern.ScanElement | Editor/SkipHotloadEditorTool.cs:159 | The scan of `Regex.Matches`, for any pattern: every listed element starts at or after the scan's start and inside the text, and the pattern matches there with that end. |
| ClassPattern.ScanOrdered | Editor/SkipHotloadEditorTool.cs:159 | The scan lists its matches in increasing order, and they never overlap. |
| ClassPattern.ScanNoneBefore | Editor/SkipHotloadEditorTool.cs:159 | No position before the first listed match starts a match. When nothing is listed, no position does. |
| ClassPattern.ScanSkip | Editor/SkipHotloadEditorTool.cs:159 | Positions where no match starts are passed over. |
| ClassPattern.MatchesFrom | Editor/SkipHotloadEditorTool.cs:159 | `Regex.Matches` of the declaration pattern: each listed match starts at or after the scan's start and lies inside the text, and each is at least 17 characters long. |
| ClassPattern.MatchesFromElement | Editor/SkipHotloadEditorTool.cs:158-159 | Each listed element is a match of the declaration pattern at its index, with its length. It starts with `c`. |
| ClassPattern.MatchesFromOrdered | Editor/SkipHotloadEditorTool.cs:159 | The declaration matches come in increasing order and never overlap. |
| ClassPattern.MatchesFromNoneBefore | Editor/SkipHotloadEditorTool.cs:159 | No position before the first listed declaration starts one. When nothing is listed, no position does. |
| ClassPattern.MatchesFromFound | Editor/SkipHotloadEditorTool.cs:159 | A declaration at the scan position is listed next, and the scan resumes at its end. |
| ClassPattern.MatchesFromSkip | Editor/SkipHotloadEditorTool.cs:159 | Positions that start no declaration are passed over. |
| ClassPattern.NoCNoMatches | Editor/SkipHotloadEditorTool.cs:158-159 | A text with no `c` from a position on has no declaration match from there. |
| Markers.ContainsMarker | Editor/SkipHotloadEditorTool.cs:166-170 | `Regex.IsMatch(beforeClass, @"\[SkipHotload\]")`: the literal marker occurs somewhere in the text. |
| Markers.MarkerInLongerPrefix | Editor/SkipHotloadEditorTool.cs:166-170 | A marker found before one line start is also found before every later line start. |
| Markers.MarkerRunEnd | Editor/SkipHotloadEditorTool.cs:180 | Where the match of `\[SkipHotload\]\s*\n` that starts at a position ends: after the last line feed of the white space that follows the marker, or None. A match reported starts with the marker and is at least 14 characters long. |
| Markers.MarkerRunEndCorrect | Editor/SkipHotloadEditorTool.cs:180 | A match of `\[SkipHotload\]\s*\n` is found exactly when one exists. It is the longest one: `\s*` is greedy and backs off to the last line feed of the white space. |
| Markers.RunsDisjoint | Editor/SkipHotloadEditorTool.cs:180-181 | No marker run starts inside another one. |
| Markers.RemoveFrom | Editor/SkipHotloadEditorTool.cs:181 | `Regex.Replace` from a position on: a run that starts there is deleted and the scan resumes after it; otherwise the character is copied. |
| Markers.RemovePass | Editor/SkipHotloadEditorTool.cs:181 | One `Regex.Replace(content, @"\[SkipHotload\]\s*\n", "")` over the whole text. |
| Markers.RemoveRepeated | Editor/SkipHotloadEditorTool.cs:161-183 | Remove mode's loop body applied a given number of times, one Replace pass each. |
| Markers.RemovePassIsSurviving | Editor/SkipHotloadEditorTool.cs:181 | One Replace pass deletes exactly the characters that lie inside some marker run of its input. Every other character is kept in order. |
| Markers.RemovePassUnchanged | Editor/SkipHotloadEditorTool.cs:181 | A pass leaves the text unchanged exactly when the text has no marker run. For example, a marker whose white space holds no line feed, such as one at the end of the file, survives. |
| Markers.RemoveFromShrinks | Editor/SkipHotloadEditorTool.cs:181 | A pass never lengthens the text. |
| Markers.RemoveFromShorter | Editor/SkipHotloadEditorTool.cs:181 | A pass shortens the text as soon as a marker run starts in it. |
| Markers.RemoveFromPlain | Editor/SkipHotloadEditorTool.cs:181 | A pass copies a stretch in which no marker run starts through unchanged. |
| Markers.PieceCopied | Editor/SkipHotloadEditorTool.cs:181 | A pass copies a stretch without `[` through unchanged. |
| Markers.RemoveRepeatedNoRun | Editor/SkipHotloadEditorTool.cs:161-183 | On a text without marker runs, any number of Replace passes changes nothing. |
| Markers.MarkerLineUnits | Editor/SkipHotloadEditorTool.cs:172 | The marker line is ASCII: its UTF-16 length is its character count, 14. |
| Toggler.LineStart | Editor/SkipHotloadEditorTool.cs:165 | `LastIndexOf('\n', classIndex) + 1` for an index inside the text is the start of the line that holds the index. |
| Toggler.LineStartUnique | Editor/SkipHotloadEditorTool.cs:165 | A position that is not a line feed lies on one line, with one start. |
| Toggler.AddMarker | Editor/SkipHotloadEditorTool.cs:158-175 | The first-match form of add mode: insert the marker line at the start of the first declaration's line unless a marker occurs before that line. |
| Toggler.RemoveMarkers | Editor/SkipHotloadEditorTool.cs:161-183 | Remove mode wherever its loop does not throw: one Replace pass per declaration match of the original text. Where a stale index throws, the program's result is `ToggleAsWritten`'s None. |
| Toggler.Toggle | Editor/SkipHotloadEditorTool.cs:155-184 | What the loop of ProcessFile makes of a text in either mode wherever it does not throw, which is the corrected transformation: AddMarker or RemoveMarkers. The program as written is `ToggleAsWritten`, which is None where remove mode throws. |
| Toggler.ToggleAsWritten | Editor/SkipHotloadEditorTool.cs:155-184 | The loop as written: None (the exception of line 165) in remove mode on the inputs where a stale index lies at or past the end of the shortened text, both counted in UTF-16 code units; Toggle otherwise. |
| Toggler.ThrowsAt | Editor/SkipHotloadEditorTool.cs:159-181 | The `i`-th remove-mode iteration throws at line 165: the index found in the original text, in UTF-16 code units, is at or past the end of the text the earlier Replace passes left. It never throws in the first iteration, nor on a text without marker runs. |
| Toggler.OriginalNeverThrows | Editor/SkipHotloadEditorTool.cs:159-181 | In the first iteration, and in every iteration on a text without marker runs, the loop still works on the original text and its index lies inside it. |
| Toggler.StaleIndexThrows | Editor/SkipHotloadEditorTool.cs:159-181 | Remove mode as written throws in some iteration. That needs at least two declarations and a marker run. |
| Toggler.AddMarkerEffect | Editor/SkipHotloadEditorTool.cs:158-175 | Add mode either leaves the text unchanged or inserts exactly `[SkipHotload]\n` at the start of the first declaration's line. It inserts exactly when no marker occurs anywhere before that line. |
| Toggler.AddKeepsText | Editor/SkipHotloadEditorTool.cs:172-173 | Add mode deletes nothing: the input is the output with at most one marker line taken out. |
| Toggler.NoMatchNoChange | Editor/SkipHotloadEditorTool.cs:158-161 | Without a declaration match, both modes leave the text unchanged, and existing markers stay. |
| Toggler.LaterMatchSeesMarker | Editor/SkipHotloadEditorTool.cs:164-170 | Once the first iteration has run, every later stale index still lies inside the text, and a marker occurs before the line it points to. |
| Toggler.DeclLeftOfInsert | Editor/SkipHotloadEditorTool.cs:158-173 | A declaration that starts before the inserted line was already a declaration of the original text. |
| Toggler.FirstMatchAfterInsert | Editor/SkipHotloadEditorTool.cs:158-173 | After the insertion, the first declaration is the old first declaration, shifted by the 14 inserted characters. |
| Toggler.AddMarkerIdempotent | Editor/SkipHotloadEditorTool.cs:165-173 | Add mode applied to its own output changes nothing. |
| Toggler.InsertedRun | Editor/SkipHotloadEditorTool.cs:172-181 | The inserted line is one whole marker run: the declaration line's indentation holds no further line feed. |
| Toggler.RemovePassUndoesInsert | Editor/SkipHotloadEditorTool.cs:172-181 | On a text that held no marker, one Replace pass deletes the inserted line and nothing else. |
| Toggler.RemoveAfterAdd | Editor/SkipHotloadEditorTool.cs:161-183 | On a text without markers, the corrected remove mode applied to add mode's output gives back the original text. |
| Toggler.DeclLeavesUnits | Editor/SkipHotloadEditorTool.cs:158-165 | A declaration match leaves at least 17 UTF-16 code units after its index. |
| Toggler.AddThenPass | Editor/SkipHotloadEditorTool.cs:161-181 | On a text without markers that holds a declaration, add mode adds exactly 14 UTF-16 code units and one Replace pass deletes them again. |
| Toggler.RoundTripAsWritten | Editor/SkipHotloadEditorTool.cs:155-184 | The round trip as the program runs it: on a text without markers, remove mode as written does not throw on add mode's output and gives the original text back. |
| Toggler.DeclFirstGetsMarker | Editor/SkipHotloadEditorTool.cs:158-175 | A text that starts with a declaration gets the marker line at its very start. |
| Toggler.SingleDeclOnePass | Editor/SkipHotloadEditorTool.cs:161-183 | With one declaration, remove mode is one Replace pass. |
| Toggler.RemoveRepeatedFixed | Editor/SkipHotloadEditorTool.cs:161-183 | Once a pass leaves no marker run, the remaining passes change nothing. |
| Toggler.RemoveMarkersDeletesRuns | Editor/SkipHotloadEditorTool.cs:161-183 | With a declaration present, remove mode deletes every marker run of its input and only those characters. It stops there unless the deletion joined the remaining pieces into a new run. |
| Toggler.AddStep | Editor/SkipHotloadEditorTool.cs:161-175 | One add-mode iteration on the original text, or on AddMarker's output, leaves AddMarker's output. The stale index still lies inside the text. |
| Toggler.AddMarkerNotShorter | Editor/SkipHotloadEditorTool.cs:172-173 | Add mode never makes the text shorter in UTF-16 code units. |
| Toggler.AddNeverThrows | Editor/SkipHotloadEditorTool.cs:161-173 | In add mode, the stale index of every iteration lies inside the text in UTF-16 code units, so `LastIndexOf` never throws there. |
| Toggler.ProcessContent | Editor/SkipHotloadEditorTool.cs:155-184 | The loop over the original text's matches, with the stale indices, computes `Toggle(original, add)`: AddMarker in add mode, one Replace pass per match in remove mode. This is the corrected form of Findings. |
| Toggler.ProcessContentAsWritten | Editor/SkipHotloadEditorTool.cs:155-184 | The loop as written. Add mode gives AddMarker's output. Remove mode gives None (the exception) exactly when some iteration's stale index lies at or past the end of the already shortened text, both counted in UTF-16 code units as .NET counts them; otherwise it gives RemoveMarkers' output. |
| HotloadTool.FileStep | Editor/SkipHotloadEditorTool.cs:153-190 | ProcessFile on a disk fails exactly when the file is missing (`File.ReadAllText` throws) or the transformation throws on its content. Otherwise only that file gets the transformed content. It is logged as written exactly when the content changed, and otherwise the disk is untouched. |
| HotloadTool.RunBatch | Editor/SkipHotloadEditorTool.cs:131-151 | A batch keeps the set of files and only appends to the log of writes. |
| HotloadTool.AddFor | Editor/SkipHotloadEditorTool.cs:136-148 | The mode of one file: the button's mode for add and remove (line 136), and add exactly when the file is not in the change set for the auto button (`!isChanged`, lines 147-148). |
| HotloadTool.Corrected | Editor/SkipHotloadEditorTool.cs:155-184 | The corrected transformation of Findings: `Toggle` in either mode, with the line start computed only in add mode, so it never throws. |
| HotloadTool.CorrectedIsTotal | Editor/SkipHotloadEditorTool.cs:161-183 | The corrected transformation never throws. This follows from the definition of `Corrected`. |
| HotloadTool.AsWrittenAgrees | Editor/SkipHotloadEditorTool.cs:155-184 | The transformation as written throws exactly in remove mode on the stale-index inputs. Where it does not throw it agrees with the corrected one. This follows from the definitions of `ToggleAsWritten` and `Corrected`. |
| HotloadTool.FailureIsFinal | Editor/SkipHotloadEditorTool.cs:134-137 | Once ProcessFile throws, the rest of the list is not processed, because nothing catches the exception. The earlier files stay written. |
| HotloadTool.BatchFailsIffMissing | Editor/SkipHotloadEditorTool.cs:134-148 | With a transformation that never throws, such as the corrected one, a batch fails exactly when some listed file is missing. |
| HotloadTool.UnlistedUnchanged | Editor/SkipHotloadEditorTool.cs:131-151 | A file the batch does not list keeps its content. |
| HotloadTool.BatchFailsIffThrows | Editor/SkipHotloadEditorTool.cs:131-183 | With no path listed twice, a batch fails exactly when ProcessFile throws on some listed file's content as it was before the batch. That happens when the file is missing, or when its mode is remove and a stale index falls past the shortened text. |
| HotloadTool.ThrowingFileStops | Editor/SkipHotloadEditorTool.cs:134-137 | A one-file batch on a file on which ProcessFile throws fails and writes nothing. |
| HotloadTool.UnwrittenUnchanged | Editor/SkipHotloadEditorTool.cs:186-188 | A file that the batch did not write keeps its content. |
| HotloadTool.BatchAppliesModes | Editor/SkipHotloadEditorTool.cs:141-151 | With no listed file on which ProcessFile throws and none listed twice, the batch does not fail and each listed file gets its mode applied exactly once. Under the auto button that is remove for files in the change set and add for all others. Unlisted files are left alone. |
| HotloadTool.ToggleAddIdempotent | Editor/SkipHotloadEditorTool.cs:158-175 | ProcessFile's transformation in add mode, as written and corrected, never throws and is idempotent. That is what the add-batch lemmas below need of it. |
| HotloadTool.AddBatchFixed | Editor/SkipHotloadEditorTool.cs:131-139 | After an add batch that did not fail, with an idempotent add mode, every listed file is a fixed point of add mode. |
| HotloadTool.FixedBatchWritesNothing | Editor/SkipHotloadEditorTool.cs:186-188 | A batch in which every file is already a fixed point of its mode writes nothing and changes nothing. |
| HotloadTool.AddTwiceWritesOnce | Editor/SkipHotloadEditorTool.cs:131-139 | With the transformation as written, pressing the add button a second time after one that did not fail writes nothing. |
| HotloadTool.FileSystem.constructor | Editor/SkipHotloadEditorTool.cs:155 | The file system starts with the given contents and no writes. |
| HotloadTool.SkipHotloadTool.constructor | Editor/SkipHotloadEditorTool.cs:17-19 | The window starts with an empty change set and with the directory's listing as its file list, empty when the directory is missing. |
| HotloadTool.SkipHotloadTool.OnFileChanged | Editor/SkipHotloadEditorTool.cs:84-88 | The changed path joins the change set. Nothing leaves the set, and the file list is unchanged. |
| HotloadTool.SkipHotloadTool.RefreshFileList | Editor/SkipHotloadEditorTool.cs:109-129 | The list is cleared and, when the directory exists, replaced by its listing. The change set is unchanged. |
| HotloadTool.SkipHotloadTool.ProcessFile | Editor/SkipHotloadEditorTool.cs:153-190 | Reads one file, runs the loop as written on it and writes it back when it changed, as FileStep states with `ToggleAsWritten`. The result is false exactly when the file is missing or the loop throws, and then nothing changes. |
| HotloadTool.SkipHotloadTool.ProcessAllFiles | Editor/SkipHotloadEditorTool.cs:131-139 | The file system ends as `RunBatch` with the loop as written over the file list in one mode says. The result is false exactly when ProcessFile threw. |
| HotloadTool.SkipHotloadTool.ApplyAutoSkipHotload | Editor/SkipHotloadEditorTool.cs:141-151 | The file system ends as `RunBatch` with the loop as written over the file list with the per-file auto mode says. The result is false exactly when ProcessFile threw. |
| HotloadTool.SkipHotloadTool.RunFiles | Editor/SkipHotloadEditorTool.cs:134-137 | The loop both buttons share: ProcessFile on each listed file in order, stopping at the first file on which it throws, proved against `RunBatch`. |
| Scenarios.ExampleLongerBase | Editor/SkipHotloadEditorTool.cs:158-159 | The pattern has no word boundary after `Component`: `class Foo : ComponentBase` holds the match (0, 21). |
| Scenarios.ExampleSubclass | Editor/SkipHotloadEditorTool.cs:158-159 | The pattern has no word boundary before `class`: `subclass Foo : Component` holds the match (3, 24). |
| Scenarios.ExampleGeneric | Editor/SkipHotloadEditorTool.cs:158-159 | `class Foo<T> : Component` holds no match, because `\w+` stops at `<`. |
| Scenarios.ExampleOtherBase | Editor/SkipHotloadEditorTool.cs:158-159 | `class Foo : OtherBase` holds no match. |
| Scenarios.ExampleGenericUntouched | Editor/SkipHotloadEditorTool.cs:158-184 | Both modes leave `class Foo<T> : Component` unchanged. |
| Scenarios.NestedMarkerSurvives | Editor/SkipHotloadEditorTool.cs:158-183 | The precondition of RemoveAfterAdd is needed. The text `[Skip[SkipHotload]\nHotload]\n` followed by `class A:Component` already holds a marker, so add mode leaves it alone. Remove mode's single pass then deletes the inner marker line, and the pieces left form a new marker run `[SkipHotload]\n`. |
| Scenarios.HalfMarkedAdd | Editor/SkipHotloadEditorTool.cs:158-175 | Add mode on `class A:Component\n[SkipHotload]\nclass B:Component` marks the first class and gives the file of StaleIndexExample. |
| Scenarios.HalfMarkedRoundTripThrows | Editor/SkipHotloadEditorTool.cs:155-184 | The precondition of RoundTripAsWritten is needed: that text already holds a marker, and remove mode as written throws on add mode's output, where the corrected remove mode unmarks both classes. |
| Scenarios.AstralTakesTwoUnits | Editor/SkipHotloadEditorTool.cs:165 | A character above U+FFFF counts once in the model's text but takes two UTF-16 code units, which is why the exception of line 165 is decided in UTF-16 units. |
| Scenarios.StaleIndexExample | Editor/SkipHotloadEditorTool.cs:159-181 | For two marked classes ending the file: the matches are at 14 and 46, the first pass leaves 35 characters, and the loop as written throws. The intended result is the text without its two marker lines. |
| Scenarios.StaleIndexAbortsBatch | Editor/SkipHotloadEditorTool.cs:131-183 | The remove button on the file of StaleIndexExample throws as written, so the file is not written and the batch fails. The corrected transformation removes both marker lines. |

## Left out

- The file-watcher setup (`StartFileWatcher`, lines 68-82) is not modelled. `OnFileChanged` takes the changed path as a parameter.
- The debounced build that `OnFileChanged` starts (lines 90-106) is not modelled: it depends on timing and thread interleaving. `BuildProjectAsync` (lines 192-229) runs an external `dotnet build` and is not modelled either.
- File I/O is modelled by the `FileSystem` class: `File.ReadAllText` and `File.WriteAllText` become reads and writes of its map.
  - A missing file makes the read throw. That is modelled as a failed step that ends the batch, and so is the exception of Findings.
  - Other I/O errors are not modelled.
- HotloadTool.SkipHotloadTool.OnFileChanged: the watcher (lines 73-81) watches `LastWrite` and so also reports the tool's own `File.WriteAllText` (line 188). Every file a batch writes, each path the batch appends to the log of writes, later joins the change set through line 87, asynchronously. So pressing add and then auto removes the markers add just inserted. This feedback is not modelled: the batches never touch the change set, and a caller would have to pass those paths to `OnFileChanged` itself.
- `Directory.GetFiles` becomes the `listing` parameter of `RefreshFileList` and the constructor. None stands for a missing directory.
- `Path.GetRelativePath` is not modelled. Files are identified by the same path in the file list, the change set and the file system, so the change-set lookup of the auto button is a plain membership test.
- Log messages, labels, buttons and the window layout are not modelled. The button handlers return an `ok` result, which is false exactly when ProcessFile threw (a missing file or the stale index of Findings) and ended the batch.
- Texts are sequences of Unicode characters, while .NET strings are sequences of UTF-16 code units. Indices differ only after a character above U+FFFF. The range check of `LastIndexOf` (line 165) depends on the difference, and the model decides it in UTF-16 units. The search itself uses the model's positions. In the first add-mode iteration, and whenever nothing was inserted, both counts point at the same character. In later add-mode iterations the stale index lies past the inserted marker line in either count, so both find a marker before the line and insert nothing.
- `\s` and `\w` are read as their ASCII members. .NET also accepts Unicode white space and letters in them.
- Toggler.RemoveAfterAdd: requires a text that held no marker before add mode. Without that, remove mode need not undo add mode and can leave a marker run: `Scenarios.NestedMarkerSurvives` shows this on `[Skip[SkipHotload]\nHotload]\n` followed by a declaration.
- Toggler.RoundTripAsWritten: requires a text that held no marker before add mode, too. On a text that already marks some of its classes, remove mode as written may throw at line 165 instead: `Scenarios.HalfMarkedRoundTripThrows` shows this on `class A:Component\n[SkipHotload]\nclass B:Component`.
- Toggler.RemoveMarkersDeletesRuns: states remove mode's result for the first Replace pass. The later passes are stated only when the first one leaves no run, because a deletion can join the pieces into a new run.
- The rest of the repository is not part of this model: the engine components, the UI panels and the Copilot widgets.

## Findings

| source | as written | input that shows it | evidently intended | confidence | as-written member | corrected member |
|---|---|---|---|---|---|---|
| Editor/SkipHotloadEditorTool.cs:159-181 | In remove mode every iteration still calls `content.LastIndexOf('\n', classIndex)` with an index found in the original text, although the earlier `Replace` passes have already shortened `content`. .NET throws ArgumentOutOfRangeException when that index is at or past the end, so the file is not written and the rest of the batch is skipped. | `"[SkipHotload]\nclass A:Component\n[SkipHotload]\nclass B:Component"`: the matches are at 14 and 46, the first pass leaves 35 characters, and the second iteration throws (`Scenarios.StaleIndexExample`). | The markers are removed: `"class A:Component\nclass B:Component"`. The line start is only needed in add mode. | not executed | Toggler.ProcessContentAsWritten, Scenarios.StaleIndexExample, Scenarios.StaleIndexAbortsBatch | Toggler.ProcessContent, HotloadTool.Corrected |

=== FILE: class_pattern.dfy ===
/** The declaration pattern `class\s+(\w+)\s*:\s*Component` of
    SkipHotloadEditorTool.ProcessFile and the left-to-right scan that
    `Regex.Matches` performs with it.

    There is no word boundary on either side: `subclass Foo : Component` and
    `class Foo : ComponentBase` both contain a match, and a generic
    `class Foo<T> : Component` contains none. White space in the pattern may
    include line breaks. The Scenarios module proves these edge cases on
    concrete declarations. */
module ClassPattern {
  import opened Wrappers
  import opened Text

  const Keyword: string := "class"
  const BaseType: string := "Component"

  /** Shortest possible match: `class`, one space, a one-letter name, the colon, `Component`. */
  const MinDeclLength: nat := 17

  /** `w[..n]` is one match of the pattern: `a` is where the class name
      starts, `b` where it ends, `c` the colon, `d` where `Component` starts. */
  ghost predicate DeclShape(w: string, n: nat, a: nat, b: nat, c: nat, d: nat) {
    5 < a < b <= c < d && d + 9 == n <= |w| &&
    w[..5] == Keyword && SpaceIn(w, 5, a) && WordIn(w, a, b) && SpaceIn(w, b, c) &&
    w[c] == ':' && SpaceIn(w, c + 1, d) && w[d..n] == BaseType
  }

  /** The prefix `w[..n]` matches the pattern as a whole. */
  ghost predicate IsDeclPrefix(w: string, n: nat) {
    exists a: nat, b: nat, c: nat, d: nat :: DeclShape(w, n, a, b, c, d)
  }

  /** The characters a match can be made of. */
  predicate DeclChar(ch: char) {
    IsSpace(ch) || IsWordChar(ch) || ch == ':'
  }

  /** The elements of the pattern, in the order they are matched:
      `class`, `\s+`, `(\w+)`, `\s*:` and `\s*Component`. */
  datatype Part = KeywordPart | GapPart | NamePart | ColonPart | BasePart

  /** How many parts follow `p`; the matcher below moves towards the last. */
  function Later(p: Part): nat {
    match p
    case KeywordPart => 4
    case GapPart => 3
    case NamePart => 2
    case ColonPart => 1
    case BasePart => 0
  }

  /** The fewest characters that part `p` and the parts after it can match. */
  function MinRest(p: Part): nat {
    match p
    case KeywordPart => MinDeclLength
    case GapPart => 12
    case NamePart => 11
    case ColonPart => 10
    case BasePart => 9
  }

  /** Where a match of the pattern ends when part `p` is matched from `w[i]`
      on, each run taken greedily, or None when the rest of the pattern
      fails there. */
  function MatchRest(w: string, p: Part, i: nat): (r: Option<nat>)
    requires i <= |w|
    ensures r.Some? ==> i + MinRest(p) <= r.value <= |w|
    decreases Later(p)
  {
    match p
    case KeywordPart =>
      if i + 5 <= |w| && w[i..i + 5] == Keyword then MatchRest(w, GapPart, i + 5) else None
    case GapPart =>
      var a := SpaceEnd(w, i);
      if a == i then None else MatchRest(w, NamePart, a)
    case NamePart =>
      var b := WordEnd(w, i);
      if b == i then None else MatchRest(w, ColonPart, b)
    case ColonPart =>
      var c := SpaceEnd(w, i);
      if c < |w| && w[c] == ':' then MatchRest(w, BasePart, c + 1) else None
    case BasePart =>
      var d := SpaceEnd(w, i);
      if d + 9 <= |w| && w[d..d + 9] == BaseType then Some(d + 9) else None
  }

  /** Length of the match of the pattern that starts at the beginning of `w`,
      if there is one. Each run is taken greedily; because white space, word
      characters and the colon are disjoint classes, backtracking can never
      find a different match (ClassDeclLengthCorrect). */
  function ClassDeclLength(w: string): (r: Option<nat>)
    ensures r.Some? ==> MinDeclLength <= r.value <= |w| && w[0] == 'c'
  {
    var r := MatchRest(w, KeywordPart, 0);
    if r.Some? then assert w[0] == w[0..5][0]; r else r
  }

  /** The greedy matcher finds exactly the prefixes of `w` that match the
      pattern as a whole; in particular that prefix is unique. */
  lemma ClassDeclLengthCorrect(w: string, n: nat)
    ensures ClassDeclLength(w) == Some(n) <==> IsDeclPrefix(w, n)
  {
    if ClassDeclLength(w) == Some(n) {
      assert w[..5] == Keyword && MatchRest(w, GapPart, 5) == Some(n);
      var a := SpaceEnd(w, 5);
      assert a != 5 && MatchRest(w, NamePart, a) == Some(n);
      var b := WordEnd(w, a);
      assert b != a && MatchRest(w, ColonPart, b) == Some(n);
      var c := SpaceEnd(w, b);
      assert c < |w| && w[c] == ':' && MatchRest(w, BasePart, c + 1) == Some(n);
      var d := SpaceEnd(w, c + 1);
      assert DeclShape(w, n, a, b, c, d);
    }
    if IsDeclPrefix(w, n) {
      var a: nat, b: nat, c: nat, d: nat :| DeclShape(w, n, a, b, c, d);
      DeclIsGreedy(w, n, a, b, c, d);
    }
  }

  lemma DeclIsGreedy(w: string, n: nat, a: nat, b: nat, c: nat, d: nat)
    requires DeclShape(w, n, a, b, c, d)
    ensures ClassDeclLength(w) == Some(n)
  {
    BaseStep(w, c, d);
    assert MatchRest(w, ColonPart, b) == Some(n) by {
      SpaceEndUnique(w, b, c);
    }
    assert MatchRest(w, NamePart, a) == Some(n) by {
      WordEndUnique(w, a, b);
    }
    assert MatchRest(w, GapPart, 5) == Some(n) by {
      SpaceEndUnique(w, 5, a);
    }
    assert w[0..5] == w[..5];
  }

  /** The last part of the pattern: white space, then `Component`. */
  lemma BaseStep(w: string, c: nat, d: nat)
    requires c < d && d + 9 <= |w| && SpaceIn(w, c + 1, d) && w[d..d + 9] == BaseType
    ensures MatchRest(w, BasePart, c + 1) == Some(d + 9)
  {
    assert w[d] == w[d..d + 9][0];
    SpaceEndUnique(w, c + 1, d);
  }

  /** A match consists of DeclChar characters only; in particular it holds
      no `[`. */
  lemma DeclChars(w: string, n: nat, i: nat)
    requires ClassDeclLength(w) == Some(n) && i < n
    ensures DeclChar(w[i])
  {
    ClassDeclLengthCorrect(w, n);
    var a: nat, b: nat, c: nat, d: nat :| DeclShape(w, n, a, b, c, d);
    LiteralsAreWordChars();
    if i < 5 {
      assert w[i] == w[..5][i] == Keyword[i];
    } else if d <= i {
      assert w[i] == w[d..n][i - d] == BaseType[i - d];
    }
  }

  /** A match starts with the `c` of `class`. */
  lemma NoDeclWithoutC(s: string, q: nat)
    requires q < |s| && s[q] != 'c'
    ensures ClassDeclLength(s[q..]).None?
  {
    assert s[q..][0] == s[q];
  }

  /** The literal parts of the pattern consist of word characters. */
  lemma LiteralsAreWordChars()
    ensures forall k :: 0 <= k < |Keyword| ==> IsWordChar(Keyword[k])
    ensures forall k :: 0 <= k < |BaseType| ==> IsWordChar(BaseType[k])
  {
  }

  /** Whether a match starts at `w[0]` depends only on the characters it covers. */
  lemma DeclLocal(w: string, w': string, n: nat)
    requires ClassDeclLength(w) == Some(n)
    requires n <= |w'| && w'[..n] == w[..n]
    ensures ClassDeclLength(w') == Some(n)
  {
    ClassDeclLengthCorrect(w, n);
    var a: nat, b: nat, c: nat, d: nat :| DeclShape(w, n, a, b, c, d);
    forall k | 0 <= k < n ensures w'[k] == w[k] {
      assert w'[..n][k] == w[..n][k];
    }
    assert w'[..5] == w[..5];
    assert w'[d..n] == w[d..n];
    assert SpaceIn(w', 5, a) && WordIn(w', a, b) && SpaceIn(w', b, c) && SpaceIn(w', c + 1, d);
    assert DeclShape(w', n, a, b, c, d);
    ClassDeclLengthCorrect(w', n);
  }

  /** One element of `Regex.Matches`: `index` is `Match.Index`, `end` is
      `Match.Index + Match.Length`. */
  datatype Match = Match(index: nat, end: nat)

  /** Where the match that starts at `s[q]` ends, if one starts there. */
  function DeclEnd(s: string, q: nat): (e: Option<nat>)
    ensures e.Some? ==> q + MinDeclLength <= e.value <= |s|
  {
    if q >= |s| then None
    else
      match ClassDeclLength(s[q..])
      case Some(n) => Some(q + n)
      case None => None
  }

  /** Each match `at` reports ends past where it starts. */
  ghost predicate Advances(at: nat -> Option<nat>) {
    forall q: nat :: at(q).Some? ==> q < at(q).value
  }

  /** The scan of `Regex.Matches` over a text of length `len`, from `pos`
      on, when `at(q)` tells where a match starting at `q` ends: the leftmost
      match, then the scan resumes where that match ends. */
  function Scan(at: nat -> Option<nat>, len: nat, pos: nat): (ms: seq<Match>)
    requires Advances(at)
    decreases len - pos
  {
    if pos >= len then []
    else
      match at(pos)
      case Some(e) => [Match(pos, e)] + Scan(at, len, e)
      case None => Scan(at, len, pos + 1)
  }

  /** The `i`-th element of the scan starts at or after `pos`, before `len`,
      and is a match that `at` reports. */
  lemma {:induction false} ScanElement(at: nat -> Option<nat>, len: nat, pos: nat, i: nat)
    requires Advances(at) && i < |Scan(at, len, pos)|
    ensures pos <= Scan(at, len, pos)[i].index < len
    ensures at(Scan(at, len, pos)[i].index) == Some(Scan(at, len, pos)[i].end)
    decreases len - pos
  {
    var ms := Scan(at, len, pos);
    match at(pos)
    case Some(e) =>
      var rest := Scan(at, len, e);
      assert ms == [Match(pos, e)] + rest;
      if i > 0 {
        assert ms[i] == rest[i - 1];
        ScanElement(at, len, e, i - 1);
      }
    case None =>
      assert ms == Scan(at, len, pos + 1);
      ScanElement(at, len, pos + 1, i);
  }

  /** Every element of the scan is a match that `at` reports, from `pos` on. */
  lemma ScanElements(at: nat -> Option<nat>, len: nat, pos: nat)
    requires Advances(at)
    ensures forall i :: 0 <= i < |Scan(at, len, pos)| ==>
      pos <= Scan(at, len, pos)[i].index < len && at(Scan(at, len, pos)[i].index) == Some(Scan(at, len, pos)[i].end)
  {
    forall i | 0 <= i < |Scan(at, len, pos)|
      ensures pos <= Scan(at, len, pos)[i].index < len && at(Scan(at, len, pos)[i].index) == Some(Scan(at, len, pos)[i].end)
    {
      ScanElement(at, len, pos, i);
    }
  }

  /** Matches come in order and never overlap: the scan resumes where a
      match ends. */
  lemma {:induction false} ScanOrdered(at: nat -> Option<nat>, len: nat, pos: nat, i: nat, j: nat)
    requires Advances(at) && i < j < |Scan(at, len, pos)|
    ensures Scan(at, len, pos)[i].end <= Scan(at, len, pos)[j].index
    decreases len - pos
  {
    var ms := Scan(at, len, pos);
    match at(pos)
    case Some(e) =>
      var rest := Scan(at, len, e);
      assert ms == [Match(pos, e)] + rest;
      assert ms[j] == rest[j - 1];
      if i > 0 {
        assert ms[i] == rest[i - 1];
        ScanOrdered(at, len, e, i - 1, j - 1);
      } else {
        ScanElement(at, len, e, j - 1);
      }
    case None =>
      assert ms == Scan(at, len, pos + 1);
      ScanOrdered(at, len, pos + 1, i, j);
  }

  /** No position the scan passes over before its first match (or before
      the end, when it finds none) starts a match. */
  lemma {:induction false} ScanNoneBefore(at: nat -> Option<nat>, len: nat, pos: nat, q: nat)
    requires Advances(at) && pos <= q < len
    requires Scan(at, len, pos) == [] || q < Scan(at, len, pos)[0].index
    ensures at(q).None?
    decreases q - pos
  {
    if pos < q {
      ScanNoneBefore(at, len, pos + 1, q);
    }
  }

  /** Positions where no match starts are passed over by the scan. */
  lemma {:induction false} ScanSkip(at: nat -> Option<nat>, len: nat, pos: nat, q: nat)
    requires Advances(at) && pos <= q <= len
    requires forall k :: pos <= k < q ==> at(k).None?
    ensures Scan(at, len, pos) == Scan(at, len, q)
    decreases q - pos
  {
    if pos < q {
      ScanSkip(at, len, pos + 1, q);
    }
  }

  /** The declarations of `s`, as the scan consults them. */
  function Decls(s: string): (at: nat -> Option<nat>)
    ensures Advances(at)
  {
    q => DeclEnd(s, q)
  }

  /** `Regex.Matches` of the declaration pattern over `s`, from `pos` on.
      MatchesFromElement and MatchesFromOrdered say what the elements are. */
  function MatchesFrom(s: string, pos: nat): (ms: seq<Match>)
    ensures forall i :: 0 <= i < |ms| ==> pos <= ms[i].index && ms[i].index + MinDeclLength <= ms[i].end <= |s|
  {
    ScanElements(Decls(s), |s|, pos);
    Scan(Decls(s), |s|, pos)
  }

  /** The `i`-th element of the scan is a match of the declaration pattern
      in `s` at its index. */
  lemma MatchesFromElement(s: string, pos: nat, i: nat)
    requires i < |MatchesFrom(s, pos)|
    ensures var m := MatchesFrom(s, pos)[i];
            m.index < |s| && ClassDeclLength(s[m.index..]) == Some(m.end - m.index) && s[m.index] == 'c'
  {
    assert DeclEnd(s, MatchesFrom(s, pos)[i].index) == Some(MatchesFrom(s, pos)[i].end) by {
      ScanElement(Decls(s), |s|, pos, i);
    }
    DeclEndIsDecl(s, MatchesFrom(s, pos)[i].index, MatchesFrom(s, pos)[i].end);
  }

  /** What DeclEnd reports is a match that starts with the `c` of `class`. */
  lemma DeclEndIsDecl(s: string, q: nat, e: nat)
    requires DeclEnd(s, q) == Some(e)
    ensures q < |s| && ClassDeclLength(s[q..]) == Some(e - q) && s[q] == 'c'
  {
    assert s[q..][0] == s[q];
  }

  /** The matches of `s` come in order and never overlap. */
  lemma MatchesFromOrdered(s: string, pos: nat)
    ensures forall i, j :: 0 <= i < j < |MatchesFrom(s, pos)| ==>
      MatchesFrom(s, pos)[i].end <= MatchesFrom(s, pos)[j].index
  {
    forall i, j | 0 <= i < j < |MatchesFrom(s, pos)|
      ensures MatchesFrom(s, pos)[i].end <= MatchesFrom(s, pos)[j].index
    {
      ScanOrdered(Decls(s), |s|, pos, i, j);
    }
  }

  /** No position the scan passes over before its first match starts a
      declaration. */
  lemma MatchesFromNoneBefore(s: string, pos: nat, q: nat)
    requires pos <= q < |s|
    requires MatchesFrom(s, pos) == [] || q < MatchesFrom(s, pos)[0].index
    ensures ClassDeclLength(s[q..]).None?
  {
    ScanNoneBefore(Decls(s), |s|, pos, q);
    assert DeclEnd(s, q).None?;
  }

  /** A declaration where the scan stands is its next element. */
  lemma MatchesFromFound(s: string, pos: nat, n: nat)
    requires pos < |s| && ClassDeclLength(s[pos..]) == Some(n)
    ensures MatchesFrom(s, pos) == [Match(pos, pos + n)] + MatchesFrom(s, pos + n)
  {
    assert Decls(s)(pos) == Some(pos + n);
  }

  /** Positions that start no declaration are passed over by the scan. */
  lemma MatchesFromSkip(s: string, pos: nat, q: nat)
    requires pos <= q <= |s|
    requires forall k :: pos <= k < q ==> ClassDeclLength(s[k..]).None?
    ensures MatchesFrom(s, pos) == MatchesFrom(s, q)
  {
    forall k | pos <= k < q ensures Decls(s)(k).None? {
      assert DeclEnd(s, k).None?;
    }
    ScanSkip(Decls(s), |s|, pos, q);
  }

  function Matches(s: string): seq<Match> {
    MatchesFrom(s, 0)
  }

  /** A text whose only `c` is its first character, where no declaration
      starts, holds no declaration. */
  lemma OnlyFirstCNoMatches(s: string)
    requires 0 < |s| && ClassDeclLength(s).None?
    requires forall k :: 1 <= k < |s| ==> s[k] != 'c'
    ensures Matches(s) == []
  {
    assert s[0..] == s;
    MatchesFromSkip(s, 0, 1);
    NoCNoMatches(s, 1);
  }

  /** A text with no `c` from `pos` on holds no declaration there. */
  lemma NoCNoMatches(s: string, pos: nat)
    requires pos <= |s| && forall k :: pos <= k < |s| ==> s[k] != 'c'
    ensures MatchesFrom(s, pos) == []
  {
    forall k | pos <= k < |s| ensures ClassDeclLength(s[k..]).None? {
      NoDeclWithoutC(s, k);
    }
    MatchesFromSkip(s, pos, |s|);
  }
}

=== FILE: markers.dfy ===
/** The `[SkipHotload]` marker: the literal test `Regex.IsMatch(t, @"\[SkipHotload\]")`
    used by add mode, and one `Regex.Replace(t, @"\[SkipHotload\]\s*\n", "")`
    pass used by remove mode. */
module Markers {
  import opened Wrappers
  import opened Text

  const Marker: string := "[SkipHotload]"

  /** The line add mode inserts. */
  const MarkerLine: string := "[SkipHotload]\n"

  /** The marker occurs in `s` at position `i`. */
  predicate MarkerAt(s: string, i: nat) {
    i + |Marker| <= |s| && s[i..i + |Marker|] == Marker
  }

  /** `Regex.IsMatch(t, @"\[SkipHotload\]")`. */
  predicate ContainsMarker(t: string) {
    exists i | 0 <= i <= |t| :: MarkerAt(t, i)
  }

  /** An occurrence in a prefix is an occurrence in every longer prefix. */
  lemma MarkerInLongerPrefix(t: string, a: nat, b: nat)
    requires a <= b <= |t| && ContainsMarker(t[..a])
    ensures ContainsMarker(t[..b])
  {
    var i: nat :| i <= a && MarkerAt(t[..a], i);
    assert t[..b][i..i + |Marker|] == t[..a][i..i + |Marker|];
    assert MarkerAt(t[..b], i);
  }

  /** `s[i..e]` is one match of `\[SkipHotload\]\s*\n`: the marker, then
      white space whose last character is a line feed. */
  ghost predicate IsMarkerRun(s: string, i: nat, e: nat) {
    MarkerAt(s, i) && i + |Marker| < e <= |s| && SpaceIn(s, i + |Marker|, e) && s[e - 1] == '\n'
  }

  /** Where the match of `\[SkipHotload\]\s*\n` that starts at `s[i]` ends,
      if one does: the greedy `\s*` takes the whole white-space run and then
      gives characters back down to its last line feed. */
  function MarkerRunEnd(s: string, i: nat): (r: Option<nat>)
    requires i <= |s|
    ensures r.Some? ==> i + |MarkerLine| <= r.value <= |s| && MarkerAt(s, i)
  {
    if !MarkerAt(s, i) then None
    else
      var k := LastIndexBelow(s, '\n', SpaceEnd(s, i + |Marker|));
      if k < i + |Marker| then None else Some(k + 1)
  }

  /** A white-space stretch from `i` never reaches past the run's end. */
  lemma SpaceEndMaximal(s: string, i: nat, j: nat)
    requires i <= j <= |s| && SpaceIn(s, i, j)
    ensures j <= SpaceEnd(s, i)
  {
  }

  /** MarkerRunEnd is the regular expression: it answers with a run when
      there is one, and then with the longest, as the greedy `\s*` does. */
  lemma MarkerRunEndCorrect(s: string, i: nat)
    requires i <= |s|
    ensures MarkerRunEnd(s, i).Some? ==> IsMarkerRun(s, i, MarkerRunEnd(s, i).value)
    ensures forall e: nat :: IsMarkerRun(s, i, e) ==>
              MarkerRunEnd(s, i).Some? && e <= MarkerRunEnd(s, i).value
  {
    if MarkerAt(s, i) {
      var w := SpaceEnd(s, i + |Marker|);
      var k := LastIndexBelow(s, '\n', w);
      forall e: nat | IsMarkerRun(s, i, e)
        ensures MarkerRunEnd(s, i).Some? && e <= MarkerRunEnd(s, i).value
      {
        SpaceEndMaximal(s, i + |Marker|, e);
      }
      if k >= i + |Marker| {
        assert SpaceIn(s, i + |Marker|, k + 1);
      }
    }
  }

  /** The marker holds no line feed. */
  lemma MarkerHasNoLineFeed()
    ensures forall j :: 0 <= j < |Marker| ==> Marker[j] != '\n'
  {
  }

  /** No character of the marker but the first is `[`. */
  lemma MarkerBracketOnlyFirst(s: string, i: nat, j: nat)
    requires MarkerAt(s, i) && i < j < i + |Marker|
    ensures s[j] != '['
  {
    assert s[j] == s[i..i + |Marker|][j - i];
  }

  /** Two marker runs never overlap: inside a run there is no `[`. */
  lemma RunsDisjoint(s: string, i: nat, j: nat)
    requires i < j <= |s| && MarkerRunEnd(s, i).Some? && j < MarkerRunEnd(s, i).value
    ensures MarkerRunEnd(s, j).None?
  {
    MarkerRunEndCorrect(s, i);
    if j < i + |Marker| {
      MarkerBracketOnlyFirst(s, i, j);
    } else {
      assert IsSpace(s[j]);
    }
    assert s[j] != '[';
    assert j + |Marker| <= |s| ==> s[j..j + |Marker|][0] == s[j];
  }

  /** One `Regex.Replace(s, @"\[SkipHotload\]\s*\n", "")`, scanning from
      `i`: a run found at the scan position is dropped and the scan resumes
      after it; otherwise the character is kept. */
  function RemoveFrom(s: string, i: nat): string
    requires i <= |s|
    decreases |s| - i
  {
    if i == |s| then []
    else
      match MarkerRunEnd(s, i)
      case Some(e) => RemoveFrom(s, e)
      case None => [s[i]] + RemoveFrom(s, i + 1)
  }

  function RemovePass(s: string): string {
    RemoveFrom(s, 0)
  }

  /** Remove mode runs one Replace per declaration match; the k-th text. */
  function RemoveRepeated(s: string, k: nat): string {
    if k == 0 then s else RemovePass(RemoveRepeated(s, k - 1))
  }

  /** A marker run of `s` starts at `i` and covers position `k`. */
  ghost predicate RunCovers(s: string, i: nat, k: nat) {
    i <= k < |s| && MarkerRunEnd(s, i).Some? && k < MarkerRunEnd(s, i).value
  }

  /** Position `k` lies inside some marker run of `s`. */
  ghost predicate Covered(s: string, k: nat) {
    exists i: nat :: RunCovers(s, i, k)
  }

  /** The characters of `s` from `k` on that lie inside no marker run of `s`,
      in order: the reference definition of what one Replace pass keeps. */
  ghost function Surviving(s: string, k: nat): string
    requires k <= |s|
    decreases |s| - k
  {
    if k == |s| then []
    else (if Covered(s, k) then [] else [s[k]]) + Surviving(s, k + 1)
  }

  lemma {:induction false} SurvivingSkip(s: string, i: nat, e: nat)
    requires i <= e <= |s|
    requires forall k :: i <= k < e ==> Covered(s, k)
    ensures Surviving(s, i) == Surviving(s, e)
    decreases e - i
  {
    if i < e {
      assert Surviving(s, i) == Surviving(s, i + 1) by {
        assert Covered(s, i);
        assert [] + Surviving(s, i + 1) == Surviving(s, i + 1);
      }
      SurvivingSkip(s, i + 1, e);
    }
  }

  /** The scan from `i` keeps exactly the characters outside marker runs,
      provided no run started before `i` reaches over it. */
  lemma {:induction false} RemoveFromSurviving(s: string, i: nat)
    requires i <= |s|
    requires forall j: nat :: j < i ==> !RunCovers(s, j, i)
    ensures RemoveFrom(s, i) == Surviving(s, i)
    decreases |s| - i
  {
    if i < |s| {
      match MarkerRunEnd(s, i)
      case Some(e) =>
        forall k | i <= k < e ensures Covered(s, k) {
          assert RunCovers(s, i, k);
        }
        SurvivingSkip(s, i, e);
        forall j: nat | j < e
          ensures !RunCovers(s, j, e)
        {
          if RunCovers(s, j, e) {
            if j < i {
              assert RunCovers(s, j, i);
            } else if j == i {
            } else {
              RunsDisjoint(s, i, j);
            }
          }
        }
        RemoveFromSurviving(s, e);
      case None =>
        var next := i + 1;
        forall j: nat | j < next
          ensures !RunCovers(s, j, next)
        {
          if RunCovers(s, j, next) && j < i {
            assert RunCovers(s, j, i);
          }
        }
        forall j: nat ensures !RunCovers(s, j, i) {
        }
        RemoveFromSurviving(s, i + 1);
    }
  }

  /** One Replace pass deletes exactly the characters that lie inside the
      marker runs of its input, and keeps every other character in order. */
  lemma RemovePassIsSurviving(s: string)
    ensures RemovePass(s) == Surviving(s, 0)
  {
    RemoveFromSurviving(s, 0);
  }

  /** Some marker run starts in `s`. */
  predicate HasMarkerRun(s: string) {
    exists i | 0 <= i <= |s| :: MarkerRunEnd(s, i).Some?
  }

  /** Between `i` and `j` no run starts: the scan copies `s[i..j]` through. */
  lemma {:induction false} RemoveFromPlain(s: string, i: nat, j: nat)
    requires i <= j <= |s|
    requires forall k: nat :: i <= k < j ==> MarkerRunEnd(s, k).None?
    ensures RemoveFrom(s, i) == s[i..j] + RemoveFrom(s, j)
    decreases j - i
  {
    if i < j {
      var rest := RemoveFrom(s, i + 1);
      assert RemoveFrom(s, i) == [s[i]] + rest by {
        assert MarkerRunEnd(s, i).None?;
      }
      RemoveFromPlain(s, i + 1, j);
      SliceCons(s, i, j, RemoveFrom(s, j));
    }
  }

  /** `s[i]` followed by `s[i + 1..j]` is `s[i..j]`, whatever comes after.
      A lemma of its own rather than an assertion inside RemoveFromPlain:
      there, with `RemoveFrom` in scope, the solver spends many times longer
      on the same step. */
  lemma SliceCons(s: string, i: nat, j: nat, b: string)
    requires i < j <= |s|
    ensures [s[i]] + (s[i + 1..j] + b) == s[i..j] + b
  {
    assert s[i..j] == [s[i]] + s[i + 1..j];
  }

  /** A stretch of text without `[` is copied through as it is: no run
      starts inside it. */
  lemma PieceCopied(s: string, i: nat, j: nat)
    requires i <= j <= |s| && '[' !in s[i..j]
    ensures RemoveFrom(s, i) == s[i..j] + RemoveFrom(s, j)
  {
    forall k: nat | i <= k < j ensures MarkerRunEnd(s, k).None? {
      NoRunInPiece(s, i, j, k);
    }
    RemoveFromPlain(s, i, j);
  }

  lemma NoRunInPiece(s: string, i: nat, j: nat, k: nat)
    requires i <= k < j <= |s| && '[' !in s[i..j]
    ensures MarkerRunEnd(s, k).None?
  {
    assert s[k] == s[i..j][k - i];
    assert k + |Marker| <= |s| ==> s[k..k + |Marker|][0] == s[k];
  }

  /** The scan never produces more than it reads. */
  lemma {:induction false} RemoveFromShrinks(s: string, i: nat)
    requires i <= |s|
    ensures |RemoveFrom(s, i)| <= |s| - i
    decreases |s| - i
  {
    if i < |s| {
      match MarkerRunEnd(s, i)
      case Some(e) => RemoveFromShrinks(s, e);
      case None => RemoveFromShrinks(s, i + 1);
    }
  }

  /** The scan produces strictly less than it reads once a run starts at
      or after where it begins. */
  lemma {:induction false} RemoveFromShorter(s: string, i: nat, k: nat)
    requires i <= k <= |s| && MarkerRunEnd(s, k).Some?
    ensures |RemoveFrom(s, i)| < |s| - i
    decreases k - i
  {
    match MarkerRunEnd(s, i)
    case Some(e) => RemoveFromShrinks(s, e);
    case None => RemoveFromShorter(s, i + 1, k);
  }

  /** A pass leaves its input unchanged exactly when the input holds no
      marker run; in particular a marker with no line feed after its white
      space, such as one at the end of the text, survives. */
  lemma RemovePassUnchanged(s: string)
    ensures RemovePass(s) == s <==> !HasMarkerRun(s)
  {
    if HasMarkerRun(s) {
      var k :| 0 <= k <= |s| && MarkerRunEnd(s, k).Some?;
      RemoveFromShorter(s, 0, k);
    } else {
      RemoveFromPlain(s, 0, |s|);
      assert s[0..|s|] == s;
    }
  }

  /** Without marker runs, any number of passes changes nothing. */
  lemma {:induction false} RemoveRepeatedNoRun(s: string, k: nat)
    requires !HasMarkerRun(s)
    ensures RemoveRepeated(s, k) == s
  {
    if k > 0 {
      RemoveRepeatedNoRun(s, k - 1);
      RemovePassUnchanged(s);
    }
  }

  /** Every marker run begins with the marker. */
  lemma RunHasMarker(s: string)
    requires HasMarkerRun(s)
    ensures ContainsMarker(s)
  {
    var i :| 0 <= i <= |s| && MarkerRunEnd(s, i).Some?;
    assert MarkerAt(s, i);
  }

  /** A marker line followed by a character that is not white space is
      one whole marker run. */
  lemma MarkerLineRun(s: string, i: nat)
    requires i + |MarkerLine| < |s| && s[i..i + |MarkerLine|] == MarkerLine
    requires !IsSpace(s[i + |MarkerLine|])
    ensures MarkerRunEnd(s, i) == Some(i + |MarkerLine|)
  {
    assert s[i..i + |Marker|] == MarkerLine[..|Marker|];
    assert s[i + |Marker|] == MarkerLine[|Marker|];
    SpaceEndUnique(s, i + |Marker|, i + |MarkerLine|);
  }

  /** The pass drops such a marker line as a whole. */
  lemma MarkerLineDropped(s: string, i: nat)
    requires i + |MarkerLine| < |s| && s[i..i + |MarkerLine|] == MarkerLine
    requires !IsSpace(s[i + |MarkerLine|])
    ensures RemoveFrom(s, i) == RemoveFrom(s, i + |MarkerLine|)
  {
    MarkerLineRun(s, i);
  }

  /** The marker line is plain ASCII: one UTF-16 code unit per character. */
  lemma MarkerLineUnits()
    ensures Utf16Length(MarkerLine) == |MarkerLine|
  {
    Utf16Bmp(MarkerLine);
  }
}

=== FILE: scenarios.dfy ===
/** Worked examples of the toggler on concrete texts: what the declaration
    pattern matches at its edges, the stale-index exception of remove mode,
    and a nested marker that remove mode cannot undo. */
module Scenarios {
  import opened Wrappers
  import opened Text
  import opened ClassPattern
  import opened Markers
  import opened Toggler
  import opened HotloadTool

  /** The declaration of the examples below matches as a whole. */
  lemma FooMatches(w: string)
    requires w == "class Foo : Component"
    ensures ClassDeclLength(w) == Some(21)
  {
    assert w[..5] == Keyword && w[12..21] == BaseType;
    assert SpaceIn(w, 5, 6) && WordIn(w, 6, 9) && SpaceIn(w, 9, 10) && SpaceIn(w, 11, 12);
    DeclIsGreedy(w, 21, 6, 9, 10, 12);
  }

  // The two facts below about string literals are lemmas of their own: the
  // solver settles them at once alone, but slowly beside the matcher's
  // definitions in the examples that use them.

  lemma LongerBaseHead(s: string)
    requires s == "class Foo : ComponentBase"
    ensures s[..21] == "class Foo : Component" && s[0..][..21] == s[..21][..21]
  {
  }

  lemma SubclassTail(s: string)
    requires s == "subclass Foo : Component"
    ensures s[3..] == "class Foo : Component"
  {
  }

  /** No word boundary after `Component`: a longer base type name still
      matches, and the match stops inside it. */
  lemma ExampleLongerBase(s: string)
    requires s == "class Foo : ComponentBase"
    ensures Matches(s) == [Match(0, 21)]
  {
    assert MatchesFrom(s, 21) == [] by {
      NoCNoMatches(s, 21);
    }
    assert ClassDeclLength(s[0..]) == Some(21) by {
      LongerBaseHead(s);
      FooMatches(s[..21]);
      DeclLocal(s[..21], s[0..], 21);
    }
    MatchesFromFound(s, 0, 21);
  }

  /** No word boundary before `class`: the tail of `subclass` matches. */
  lemma ExampleSubclass(s: string)
    requires s == "subclass Foo : Component"
    ensures Matches(s) == [Match(3, 24)]
  {
    assert MatchesFrom(s, 24) == [] by {
      NoCNoMatches(s, 24);
    }
    assert MatchesFrom(s, 0) == MatchesFrom(s, 3) by {
      forall k | 0 <= k < 3 ensures ClassDeclLength(s[k..]).None? {
        NoDeclWithoutC(s, k);
      }
      MatchesFromSkip(s, 0, 3);
    }
    assert ClassDeclLength(s[3..]) == Some(21) by {
      SubclassTail(s);
      FooMatches(s[3..]);
    }
    MatchesFromFound(s, 3, 21);
  }

  /** In `class Foo<T> : Component`, `\w+` stops at `<` and no colon follows. */
  lemma GenericHasNoDecl(w: string)
    requires w == "class Foo<T> : Component"
    ensures ClassDeclLength(w).None?
  {
    assert w[0..5] == Keyword;
    SpaceEndUnique(w, 5, 6);
    WordEndUnique(w, 6, 9);
    SpaceEndUnique(w, 9, 9);
    assert MatchRest(w, NamePart, 6).None?;
  }

  /** A generic class does not match. */
  lemma ExampleGeneric(s: string)
    requires s == "class Foo<T> : Component"
    ensures Matches(s) == []
  {
    assert forall k :: 1 <= k < |s| ==> s[k] != 'c';
    GenericHasNoDecl(s);
    OnlyFirstCNoMatches(s);
  }

  /** In `class Foo : OtherBase`, `Component` is not where the colon's
      white space ends. */
  lemma OtherBaseHasNoDecl(w: string)
    requires w == "class Foo : OtherBase"
    ensures ClassDeclLength(w).None?
  {
    assert w[0..5] == Keyword;
    SpaceEndUnique(w, 5, 6);
    WordEndUnique(w, 6, 9);
    SpaceEndUnique(w, 9, 10);
    SpaceEndUnique(w, 11, 12);
    assert w[12..21][0] != BaseType[0];
    assert MatchRest(w, BasePart, 11).None?;
    assert MatchRest(w, NamePart, 6).None?;
  }

  /** A class deriving from another base type does not match. */
  lemma ExampleOtherBase(s: string)
    requires s == "class Foo : OtherBase"
    ensures Matches(s) == []
  {
    assert forall k :: 1 <= k < |s| ==> s[k] != 'c';
    OtherBaseHasNoDecl(s);
    OnlyFirstCNoMatches(s);
  }

  const DeclA: string := "class A:Component"
  const DeclB: string := "class B:Component"

  /** Two classes, each already under a marker line, in a text that ends
      with the second declaration: 63 characters. */
  const TwoMarkedClasses: string := MarkerLine + DeclA + "\n" + MarkerLine + DeclB

  /** `class A:Component` is a match of 17 characters, and so is `class B:Component`. */
  lemma ShortDeclsMatch(w: string, decl: string)
    requires decl == DeclA || decl == DeclB
    requires |decl| <= |w| && w[..|decl|] == decl
    ensures ClassDeclLength(w) == Some(|decl|)
  {
    assert w[..5] == decl[..5] == Keyword;
    assert w[8..17] == decl[8..17] == BaseType;
    assert DeclShape(w, 17, 6, 7, 7, 8);
    DeclIsGreedy(w, 17, 6, 7, 7, 8);
  }

  /** The scan of the example passes the first marker line and finds `class A:Component`. */
  lemma ExampleScanHead(s: string)
    requires s == TwoMarkedClasses
    ensures MatchesFrom(s, 0) == [Match(14, 31)] + MatchesFrom(s, 31)
  {
    assert forall k :: 0 <= k < 14 ==> ClassDeclLength(s[k..]).None? by {
      MarkerLineHasNoC();
      forall k | 0 <= k < 14 ensures ClassDeclLength(s[k..]).None? {
        assert s[k] == MarkerLine[k];
        NoDeclWithoutC(s, k);
      }
    }
    assert MatchesFrom(s, 0) == MatchesFrom(s, 14) by {
      MatchesFromSkip(s, 0, 14);
    }
    assert ClassDeclLength(s[14..]) == Some(17) by {
      ShortDeclsMatch(s[14..], DeclA);
    }
    MatchesFromFound(s, 14, 17);
  }

  /** It then passes the second marker line and finds `class B:Component` at the end. */
  lemma ExampleScanTail(s: string)
    requires s == TwoMarkedClasses
    ensures MatchesFrom(s, 31) == [Match(46, 63)]
  {
    assert forall k :: 31 <= k < 46 ==> ClassDeclLength(s[k..]).None? by {
      MarkerLineHasNoC();
      forall k | 31 <= k < 46 ensures ClassDeclLength(s[k..]).None? {
        if k > 31 {
          assert s[k] == MarkerLine[k - 32];
        }
        NoDeclWithoutC(s, k);
      }
    }
    assert MatchesFrom(s, 31) == MatchesFrom(s, 46) by {
      MatchesFromSkip(s, 31, 46);
    }
    assert ClassDeclLength(s[46..]) == Some(17) by {
      ShortDeclsMatch(s[46..], DeclB);
    }
    MatchesFromFound(s, 46, 17);
    assert MatchesFrom(s, 63) == [];
  }

  /** The pass over the example drops its first line. */
  lemma ExampleDropsLine1(s: string)
    requires s == TwoMarkedClasses
    ensures RemoveFrom(s, 0) == RemoveFrom(s, 14)
  {
    assert s[0..14] == MarkerLine;
    MarkerLineDropped(s, 0);
  }

  /** It copies the first declaration line. */
  lemma ExampleKeepsLine2(s: string)
    requires s == TwoMarkedClasses
    ensures RemoveFrom(s, 14) == DeclA + "\n" + RemoveFrom(s, 32)
  {
    assert s[14..32] == DeclA + "\n";
    PieceCopied(s, 14, 32);
  }

  /** It drops the second marker line. */
  lemma ExampleDropsLine3(s: string)
    requires s == TwoMarkedClasses
    ensures RemoveFrom(s, 32) == RemoveFrom(s, 46)
  {
    assert s[32..46] == MarkerLine;
    MarkerLineDropped(s, 32);
  }

  /** It copies the second declaration, which ends the text. */
  lemma ExampleKeepsLine4(s: string)
    requires s == TwoMarkedClasses
    ensures RemoveFrom(s, 46) == DeclB
  {
    assert s[46..63] == DeclB;
    PieceCopied(s, 46, 63);
    assert RemoveFrom(s, 63) == [];
  }

  /** The first Replace pass on the example deletes both marker lines. */
  lemma ExampleFirstPass(s: string)
    requires s == TwoMarkedClasses
    ensures RemovePass(s) == DeclA + "\n" + DeclB
  {
    ExampleDropsLine1(s);
    ExampleKeepsLine2(s);
    ExampleDropsLine3(s);
    ExampleKeepsLine4(s);
  }

  /** The text without marker lines has no run left for the second pass. */
  lemma ExampleSecondPass(once: string)
    requires once == DeclA + "\n" + DeclB
    ensures RemovePass(once) == once
  {
    assert once[0..|once|] == once;
    assert '[' !in once;
    PieceCopied(once, 0, |once|);
  }

  /** Text outside the Basic Multilingual Plane takes two UTF-16 code units
      per character, so the exception's bound is not the character count. */
  lemma AstralTakesTwoUnits(w: string)
    requires w == "class \U{1F389}"
    ensures |w| == 7 && Utf16Length(w) == 8
  {
    assert w[..6] + w[6..] == w;
    Utf16Concat(w[..6], w[6..]);
    Utf16Bmp(w[..6]);
  }

  /** The text left by the first pass is all in the Basic Multilingual
      Plane: 35 characters are 35 UTF-16 code units. */
  lemma OncePassedUnits(once: string)
    requires once == DeclA + "\n" + DeclB
    ensures Utf16Length(once) == 35
  {
    Utf16Bmp(once);
  }

  /** The first Replace pass deletes both marker lines and leaves 35
      characters, but the second match was found at index 46 of the
      original text: ProcessFile as written throws on its second iteration,
      where the intended result is the text without its marker lines. */
  lemma StaleIndexExample(s: string)
    requires s == TwoMarkedClasses
    ensures Matches(s) == [Match(14, 31), Match(46, 63)]
    ensures |RemovePass(s)| == 35
    ensures StaleIndexThrows(s)
    ensures RemoveMarkers(s) == DeclA + "\n" + DeclB
  {
    assert Utf16Length(DeclA + "\n" + DeclB) == 35 by {
      OncePassedUnits(DeclA + "\n" + DeclB);
    }
    assert Matches(s) == [Match(14, 31), Match(46, 63)] by {
      ExampleScanHead(s);
      ExampleScanTail(s);
    }
    var once := RemovePass(s);
    assert once == DeclA + "\n" + DeclB by {
      ExampleFirstPass(s);
    }
    assert RemovePass(once) == once by {
      ExampleSecondPass(once);
    }
    assert RemoveRepeated(s, 1) == once;
    assert ThrowsAt(s, 1);
    assert RemoveRepeated(s, 2) == once;
  }

  /** The literal facts about the half-marked text below. */
  lemma HalfMarkedText(s: string)
    requires s == DeclA + "\n" + MarkerLine + DeclB
    ensures |DeclA| <= |s| && s[..|DeclA|] == DeclA && MarkerAt(s, 18)
    ensures MarkerLine + s == TwoMarkedClasses
  {
  }

  /** A text whose second class is already marked: add mode marks the first
      one and gives the file of StaleIndexExample. */
  lemma HalfMarkedAdd(s: string)
    requires s == DeclA + "\n" + MarkerLine + DeclB
    ensures AddMarker(s) == TwoMarkedClasses
  {
    HalfMarkedText(s);
    ShortDeclsMatch(s, DeclA);
    DeclFirstGetsMarker(s, |DeclA|);
  }

  /** The precondition of RoundTripAsWritten is needed, and not only for
      nested markers: on a text that already marks one of two classes,
      remove mode as written throws on add mode's output, where the
      corrected remove mode unmarks both classes. */
  lemma HalfMarkedRoundTripThrows(s: string)
    requires s == DeclA + "\n" + MarkerLine + DeclB
    ensures ContainsMarker(s)
    ensures ToggleAsWritten(AddMarker(s), false) == None
    ensures Toggle(AddMarker(s), false) == DeclA + "\n" + DeclB
  {
    HalfMarkedText(s);
    HalfMarkedAdd(s);
    StaleIndexExample(TwoMarkedClasses);
  }

  /** A generic class is left alone by both modes. */
  lemma ExampleGenericUntouched(s: string)
    requires s == "class Foo<T> : Component"
    ensures Toggle(s, true) == s && Toggle(s, false) == s
  {
    ExampleGeneric(s);
    NoMatchNoChange(s, true);
    NoMatchNoChange(s, false);
  }

  /** A marker nested inside a broken one: `[Skip`, a marker line, then
      `Hotload]` on a line of its own. Deleting the inner marker line joins
      the outer pieces into a new marker line. */
  const NestedMarker: string := "[Skip" + MarkerLine + "Hotload]\n"

  /** The nested-marker text has one declaration, on its third line. */
  lemma NestedScan(s: string)
    requires s == NestedMarker + DeclA
    ensures Matches(s) == [Match(28, 45)]
  {
    assert forall k :: 0 <= k < 28 ==> s[k] != 'c';
    assert MatchesFrom(s, 0) == MatchesFrom(s, 28) by {
      forall k | 0 <= k < 28 ensures ClassDeclLength(s[k..]).None? {
        NoDeclWithoutC(s, k);
      }
      MatchesFromSkip(s, 0, 28);
    }
    assert ClassDeclLength(s[28..]) == Some(17) by {
      ShortDeclsMatch(s[28..], DeclA);
    }
    MatchesFromFound(s, 28, 17);
    assert MatchesFrom(s, 45) == [];
  }

  /** The inner marker starts at 5, before the declaration's line. */
  lemma NestedHasMarker(s: string)
    requires s == NestedMarker + DeclA
    ensures MarkerAt(s, 5) && MarkerAt(s[..28], 5)
  {
    assert s[5..5 + |Marker|] == Marker;
    assert s[..28][5..5 + |Marker|] == Marker;
  }

  /** The line of the declaration already holds a marker before it, so add
      mode leaves the text alone. */
  lemma NestedAddUnchanged(s: string)
    requires s == NestedMarker + DeclA && Matches(s) == [Match(28, 45)]
    ensures AddMarker(s) == s
  {
    NestedHasMarker(s);
    assert IsLineStartOf(s, 28, 28);
    MarkedLineKept(s, 28, 5);
  }

  /** The pass copies `[Skip`: no marker starts in it. */
  lemma NestedKeepsHead(s: string)
    requires s == NestedMarker + DeclA
    ensures RemoveFrom(s, 0) == s[0..5] + RemoveFrom(s, 5)
  {
    assert s[0..|Marker|][5] != Marker[5];
    forall k: nat | 0 <= k < 5 ensures MarkerRunEnd(s, k).None? {
      if k > 0 {
        assert s[k..k + |Marker|][0] == s[k];
      }
    }
    RemoveFromPlain(s, 0, 5);
  }

  /** It drops the inner marker line. */
  lemma NestedDropsInner(s: string)
    requires s == NestedMarker + DeclA
    ensures RemoveFrom(s, 5) == RemoveFrom(s, 19)
  {
    assert s[5..19] == MarkerLine;
    MarkerLineDropped(s, 5);
  }

  /** It copies the rest, from `Hotload]` on. */
  lemma NestedKeepsTail(s: string)
    requires s == NestedMarker + DeclA
    ensures RemoveFrom(s, 19) == s[19..45]
  {
    assert '[' !in s[19..45];
    PieceCopied(s, 19, 45);
    assert RemoveFrom(s, 45) == [];
  }

  /** The one pass joins `[Skip` and `Hotload]` into a marker line. */
  lemma NestedPass(s: string)
    requires s == NestedMarker + DeclA
    ensures RemovePass(s) == MarkerLine + DeclA
  {
    assert s[0..5] + s[19..45] == MarkerLine + DeclA;
    NestedKeepsHead(s);
    NestedDropsInner(s);
    NestedKeepsTail(s);
  }

  /** The result starts with a whole marker line again. */
  lemma JoinedLineIsRun(t: string)
    requires t == MarkerLine + DeclA
    ensures HasMarkerRun(t)
  {
    assert t[0..|MarkerLine|] == MarkerLine;
    MarkerLineRun(t, 0);
  }

  /** A text that held a marker before add mode need not come back from
      remove mode, and a marker run can be left: the one Replace pass that
      the single declaration allows deletes the inner marker line, and the
      remaining pieces form `[SkipHotload]` followed by a line feed. */
  lemma NestedMarkerSurvives(s: string)
    requires s == NestedMarker + DeclA
    ensures ContainsMarker(s) && AddMarker(s) == s
    ensures RemoveMarkers(AddMarker(s)) == MarkerLine + DeclA != s
    ensures HasMarkerRun(RemoveMarkers(AddMarker(s)))
  {
    assert |MarkerLine + DeclA| < |s|;
    NestedHasMarker(s);
    assert Matches(s) == [Match(28, 45)] by {
      NestedScan(s);
    }
    NestedAddUnchanged(s);
    assert RemovePass(s) == MarkerLine + DeclA by {
      NestedPass(s);
    }
    SingleDeclOnePass(s);
    JoinedLineIsRun(MarkerLine + DeclA);
  }

  /** The two marked classes of StaleIndexExample, alone in a file: the
      remove button throws on it, so the file is not written and the batch
      fails, where the corrected tool removes both marker lines. */
  lemma StaleIndexAbortsBatch(s: string, d: Disk)
    requires s == TwoMarkedClasses && d == Disk(map["A.cs" := s], [])
    ensures RunBatch(ToggleAsWritten, d, ["A.cs"], All(false)) == Outcome(d, true)
    ensures RunBatch(Corrected, d, ["A.cs"], All(false)).disk.files["A.cs"] == DeclA + "\n" + DeclB
  {
    assert StaleIndexThrows(s) && RemoveMarkers(s) == DeclA + "\n" + DeclB by {
      StaleIndexExample(s);
    }
    assert Throws(ToggleAsWritten, d.files, "A.cs", All(false));
    ThrowingFileStops(ToggleAsWritten, d, "A.cs", All(false));
    assert !Throws(Corrected, d.files, "A.cs", All(false));
    assert ["A.cs"][..0] == [];
  }
}

=== FILE: text.dfy ===
/** Character classes and the few .NET string primitives the toggler relies on.

    The .NET regular-expression classes are Unicode-aware; this model reads
    `\s` as the six ASCII white-space characters and `\w` as ASCII letters,
    digits and the underscore. */
module Text {
  import opened Wrappers

  /** `\s`: space, tab, line feed, carriage return, vertical tab, form feed. */
  predicate IsSpace(c: char) {
    c == ' ' || c == '\t' || c == '\n' || c == '\r' || c == '\U{000B}' || c == '\U{000C}'
  }

  /** `\w`: an ASCII letter, digit or underscore. */
  predicate IsWordChar(c: char) {
    ('a' <= c <= 'z') || ('A' <= c <= 'Z') || ('0' <= c <= '9') || c == '_'
  }

  /** Every character of `w[lo..hi]` is white space. */
  predicate SpaceIn(w: string, lo: nat, hi: nat)
    requires lo <= hi <= |w|
  {
    forall k :: lo <= k < hi ==> IsSpace(w[k])
  }

  /** Every character of `w[lo..hi]` is a word character. */
  predicate WordIn(w: string, lo: nat, hi: nat)
    requires lo <= hi <= |w|
  {
    forall k :: lo <= k < hi ==> IsWordChar(w[k])
  }

  /** Where the white-space run starting at `w[i]` ends: what a greedy `\s*`
      consumes from `i` on. */
  function SpaceEnd(w: string, i: nat): (j: nat)
    requires i <= |w|
    ensures i <= j <= |w| && SpaceIn(w, i, j)
    ensures j < |w| ==> !IsSpace(w[j])
    decreases |w| - i
  {
    if i < |w| && IsSpace(w[i]) then SpaceEnd(w, i + 1) else i
  }

  /** Where the run of word characters starting at `w[i]` ends: what a greedy
      `\w+` consumes from `i` on when it is not `i` itself. */
  function WordEnd(w: string, i: nat): (j: nat)
    requires i <= |w|
    ensures i <= j <= |w| && WordIn(w, i, j)
    ensures j < |w| ==> !IsWordChar(w[j])
    decreases |w| - i
  {
    if i < |w| && IsWordChar(w[i]) then WordEnd(w, i + 1) else i
  }

  /** A white-space stretch followed by a non-space (or the end) is the run. */
  lemma {:induction false} SpaceEndUnique(w: string, i: nat, j: nat)
    requires i <= j <= |w| && SpaceIn(w, i, j)
    requires j < |w| ==> !IsSpace(w[j])
    ensures SpaceEnd(w, i) == j
    decreases j - i
  {
    if i < j {
      SpaceEndUnique(w, i + 1, j);
    }
  }

  lemma {:induction false} WordEndUnique(w: string, i: nat, j: nat)
    requires i <= j <= |w| && WordIn(w, i, j)
    requires j < |w| ==> !IsWordChar(w[j])
    ensures WordEnd(w, i) == j
    decreases j - i
  {
    if i < j {
      WordEndUnique(w, i + 1, j);
    }
  }

  /** Index of the last `c` in `s[..n]`, or -1 when there is none. */
  function LastIndexBelow(s: string, c: char, n: nat): (k: int)
    requires n <= |s|
    ensures -1 <= k < n
    ensures k >= 0 ==> s[k] == c
    ensures forall j :: k < j < n ==> s[j] != c
  {
    if n == 0 then -1 else if s[n - 1] == c then n - 1 else LastIndexBelow(s, c, n - 1)
  }

  /** .NET `String.LastIndexOf(char, startIndex)`, with `startIndex` and the
      result as positions of the model's text: searches backward from
      `startIndex` inclusive. On a non-empty string a `startIndex` at or past
      the end throws ArgumentOutOfRangeException, modelled as None; on the
      empty string the answer is -1. Up to the end of the text this is the
      exception LastIndexOfThrows decides in UTF-16 code units. */
  function LastIndexOf(s: string, c: char, startIndex: nat): (r: Option<int>)
    ensures r.None? <==> s != [] && startIndex >= |s|
    ensures startIndex <= |s| ==> (r.None? <==> LastIndexOfThrows(s, Utf16Length(s[..startIndex])))
    ensures r.Some? ==> -1 <= r.value <= startIndex && r.value < |s|
    ensures r.Some? && r.value >= 0 ==> s[r.value] == c
    ensures r.Some? ==> forall j :: r.value < j <= startIndex && j < |s| ==> s[j] != c
  {
    if s == [] then Some(-1)
    else if startIndex >= |s| then
      assert startIndex <= |s| ==> s[..startIndex] == s;
      None
    else
      Utf16PrefixShorter(s, startIndex);
      Some(LastIndexBelow(s, c, startIndex + 1))
  }

  /** The UTF-16 code units .NET stores for `c`: a surrogate pair for a
      character above U+FFFF, one unit otherwise. */
  function Units(c: char): nat {
    if c as int > 0xFFFF then 2 else 1
  }

  /** .NET `String.Length`: the number of UTF-16 code units of `s`. The
      model's texts are sequences of Unicode characters, so indices in them
      count characters; a .NET index into the same text is the UTF-16
      length of the text before that position. */
  function Utf16Length(s: string): (n: nat)
    ensures |s| <= n <= 2 * |s|
  {
    if s == [] then 0 else Units(s[0]) + Utf16Length(s[1..])
  }

  lemma {:induction false} Utf16Concat(a: string, b: string)
    ensures Utf16Length(a + b) == Utf16Length(a) + Utf16Length(b)
  {
    if a == [] {
      assert a + b == b;
    } else {
      assert (a + b)[1..] == a[1..] + b;
      Utf16Concat(a[1..], b);
    }
  }

  /** A position inside the text has a .NET index inside it too. */
  lemma Utf16PrefixShorter(s: string, p: nat)
    requires p < |s|
    ensures Utf16Length(s[..p]) < Utf16Length(s)
  {
    assert s == s[..p] + s[p..];
    Utf16Concat(s[..p], s[p..]);
  }

  /** Without characters above U+FFFF, .NET indices and the model's agree. */
  lemma {:induction false} Utf16Bmp(s: string)
    requires forall k :: 0 <= k < |s| ==> s[k] as int <= 0xFFFF
    ensures Utf16Length(s) == |s|
  {
    if s != [] {
      assert forall k :: 0 <= k < |s[1..]| ==> s[1..][k] == s[k + 1];
      Utf16Bmp(s[1..]);
    }
  }

  /** Whether .NET `String.LastIndexOf(char, startIndex)` throws
      ArgumentOutOfRangeException, with `startIndex` counted in UTF-16 code
      units: on a non-empty string, a start index at or past its Length. */
  predicate LastIndexOfThrows(s: string, startIndex: nat): (r: bool)
    ensures r ==> s != [] && |s| <= startIndex
    ensures s != [] && 2 * |s| <= startIndex ==> r
  {
    s != [] && startIndex >= Utf16Length(s)
  }

  /** .NET `String.Insert(index, x)`: `x` placed before `s[index]`, and
      every character of `s` kept in order around it. */
  function InsertAt(s: string, index: nat, x: string): (r: string)
    requires index <= |s|
    ensures |r| == |s| + |x|
    ensures r[..index] == s[..index] && r[index..index + |x|] == x && r[index + |x|..] == s[index..]
    ensures forall j :: 0 <= j < index ==> r[j] == s[j]
    ensures forall j :: index <= j < index + |x| ==> r[j] == x[j - index]
    ensures forall j :: index + |x| <= j < |r| ==> r[j] == s[j - |x|]
  {
    s[..index] + x + s[index..]
  }

  /** Inserting `x` adds its UTF-16 code units to the text's. */
  lemma InsertUnits(s: string, index: nat, x: string)
    requires index <= |s|
    ensures Utf16Length(InsertAt(s, index, x)) == Utf16Length(s) + Utf16Length(x)
  {
    assert s == s[..index] + s[index..];
    Utf16Concat(s[..index], s[index..]);
    Utf16Concat(s[..index] + x, s[index..]);
    Utf16Concat(s[..index], x);
  }
}

=== FILE: toggler.dfy ===
/** The content transformation of SkipHotloadEditorTool.ProcessFile: add mode
    puts `[SkipHotload]` on its own line above the first class declaration
    that has no marker before it, remove mode deletes marker lines.

    The specification functions say what the text becomes (AddMarker,
    RemoveMarkers, Toggle); the methods walk the list of declaration matches
    the way ProcessFile does, reusing the indices found in the original text
    after the text has changed. */
module Toggler {
  import opened Wrappers
  import opened Text
  import opened ClassPattern
  import opened Markers

  /** `l` is where the line holding position `p` of `s` starts. */
  predicate IsLineStartOf(s: string, l: nat, p: nat) {
    l <= p < |s| && (l == 0 || s[l - 1] == '\n') && forall j :: l <= j < p ==> s[j] != '\n'
  }

  /** `content.LastIndexOf('\n', p) + 1`, for a position inside the text. */
  function LineStart(s: string, p: nat): (l: nat)
    requires p < |s|
    ensures l <= p + 1 && (l == 0 || s[l - 1] == '\n')
    ensures forall j :: l <= j <= p ==> s[j] != '\n'
    ensures s[p] != '\n' ==> IsLineStartOf(s, l, p)
  {
    LastIndexOf(s, '\n', p).value + 1
  }

  /** A line has one start. */
  lemma LineStartUnique(s: string, l: nat, p: nat)
    requires IsLineStartOf(s, l, p) && s[p] != '\n'
    ensures LineStart(s, p) == l
  {
  }

  /** Add mode: at most one marker line, at the start of the line that holds
      the first declaration, and only when no marker occurs anywhere in the
      text before that line. (The stale-index loop of ProcessFile computes
      exactly this; see ProcessContent.) */
  function AddMarker(s: string): string {
    var ms := Matches(s);
    if ms == [] then s
    else
      var lineStart := LineStart(s, ms[0].index);
      if ContainsMarker(s[..lineStart]) then s else InsertAt(s, lineStart, MarkerLine)
  }

  /** Remove mode: one Replace pass per declaration match of the original text. */
  function RemoveMarkers(s: string): string {
    RemoveRepeated(s, |Matches(s)|)
  }

  function Toggle(s: string, add: bool): string {
    if add then AddMarker(s) else RemoveMarkers(s)
  }

  /** Add mode either leaves the text alone or inserts exactly one marker
      line at the start of the line holding the first declaration; it
      inserts iff no marker occurs anywhere before that line. Nothing of the
      input is deleted: it stays, in order, around the inserted line. */
  lemma AddMarkerEffect(s: string, l: nat)
    requires Matches(s) != [] && IsLineStartOf(s, l, Matches(s)[0].index)
    ensures AddMarker(s) == if ContainsMarker(s[..l]) then s else InsertAt(s, l, MarkerLine)
    ensures AddMarker(s) != s <==> !ContainsMarker(s[..l])
  {
    MatchesFromElement(s, 0, 0);
    LineStartUnique(s, l, Matches(s)[0].index);
  }

  /** Add mode never deletes: the input is the output with at most one
      marker line taken out. */
  lemma AddKeepsText(s: string)
    ensures AddMarker(s) == s ||
            exists l :: 0 <= l <= |s| && AddMarker(s)[..l] == s[..l] &&
              AddMarker(s)[l..l + |MarkerLine|] == MarkerLine && AddMarker(s)[l + |MarkerLine|..] == s[l..]
  {
    var ms := Matches(s);
    if ms != [] {
      var l := LineStart(s, ms[0].index);
        if !ContainsMarker(s[..l]) {
        assert AddMarker(s)[l..l + |MarkerLine|] == MarkerLine;
      }
    }
  }

  /** With no declaration match, neither mode changes the text; in remove
      mode existing marker lines stay. */
  lemma NoMatchNoChange(s: string, add: bool)
    requires Matches(s) == []
    ensures Toggle(s, add) == s
  {
  }

  /** A marker followed by a line feed before the line of `q` is seen by
      the prefix test of that line. */
  lemma MarkerBeforeLine(t: string, m: nat, q: nat)
    requires MarkerAt(t, m) && m + |Marker| <= q < |t| && t[m + |Marker|] == '\n'
    ensures ContainsMarker(t[..LineStart(t, q)])
  {
    var l := LineStart(t, q);
    assert m + |Marker| < l;
    assert t[..l][m..m + |Marker|] == t[m..m + |Marker|];
    assert MarkerAt(t[..l], m);
  }

  /** The inserted marker line, as seen in the text that holds it. */
  lemma InsertedMarker(s: string, l: nat)
    requires l <= |s|
    ensures MarkerAt(InsertAt(s, l, MarkerLine), l)
    ensures InsertAt(s, l, MarkerLine)[l + |Marker|] == '\n'
  {
    var t := InsertAt(s, l, MarkerLine);
    assert t[l..l + |Marker|] == MarkerLine[..|Marker|];
  }

  /** Every declaration after the first sees a marker before its line once
      add mode has run on the first one: the inserted line ends before the
      first declaration ends, and every later one starts after that. */
  lemma LaterMatchSeesMarker(s: string, i: nat)
    requires 1 <= i < |Matches(s)|
    ensures Matches(s)[i].index < |AddMarker(s)|
    ensures ContainsMarker(AddMarker(s)[..LineStart(AddMarker(s), Matches(s)[i].index)])
  {
    var ms := Matches(s);
    var l := LineStart(s, ms[0].index);
    MatchesFromOrdered(s, 0);
    assert ms[0].end <= ms[i].index;
    if ContainsMarker(s[..l]) {
      var li := LineStart(s, ms[i].index);
      assert l <= li;
      MarkerInLongerPrefix(s, l, li);
    } else {
      InsertedMarker(s, l);
      MarkerBeforeLine(InsertAt(s, l, MarkerLine), l, ms[i].index);
    }
  }

  /** A declaration found in the text with the marker line inserted at `l`
      and starting before `l` is a declaration of the original text: it
      cannot reach into the inserted line, which starts with `[`. */
  lemma DeclLeftOfInsert(s: string, l: nat, q: nat)
    requires q < l <= |s|
    ensures ClassDeclLength(InsertAt(s, l, MarkerLine)[q..]).Some? ==> ClassDeclLength(s[q..]).Some?
  {
    var t := InsertAt(s, l, MarkerLine);
    if ClassDeclLength(t[q..]).Some? {
      var n := ClassDeclLength(t[q..]).value;
      if q + n <= l {
        assert s[q..][..n] == t[q..][..n];
        DeclLocal(t[q..], s[q..], n);
      } else {
        assert t[q..][l - q] == '[';
        DeclChars(t[q..], n, l - q);
      }
    }
  }

  /** The scan's first match is the leftmost position that starts a declaration. */
  lemma FirstMatchIs(t: string, q0: nat)
    requires q0 < |t| && ClassDeclLength(t[q0..]).Some?
    requires forall q :: 0 <= q < q0 ==> ClassDeclLength(t[q..]).None?
    ensures Matches(t) != [] && Matches(t)[0].index == q0
  {
    MatchesFromSkip(t, 0, q0);
  }

  /** Inserting the marker line at the start of the first declaration's line
      shifts that declaration by the line's length and adds none before it. */
  lemma FirstMatchAfterInsert(s: string)
    requires Matches(s) != []
    ensures var t := InsertAt(s, LineStart(s, Matches(s)[0].index), MarkerLine);
            Matches(t) != [] && Matches(t)[0].index == Matches(s)[0].index + |MarkerLine|
  {
    var p := Matches(s)[0].index;
    var l := LineStart(s, p);
    ShiftedFirstDecl(s, l, p);
    NoDeclBeforeShiftedFirst(s, l, p);
    FirstMatchIs(InsertAt(s, l, MarkerLine), p + |MarkerLine|);
  }

  /** The first declaration, moved right by the inserted line, is still one. */
  lemma ShiftedFirstDecl(s: string, l: nat, p: nat)
    requires Matches(s) != [] && p == Matches(s)[0].index && l == LineStart(s, p)
    ensures p + |MarkerLine| < |InsertAt(s, l, MarkerLine)|
    ensures ClassDeclLength(InsertAt(s, l, MarkerLine)[p + |MarkerLine|..]).Some?
  {
    MatchesFromElement(s, 0, 0);
    var t := InsertAt(s, l, MarkerLine);
    assert t[p + |MarkerLine|..] == s[p..];
  }

  /** Nothing before the shifted first declaration starts one. */
  lemma NoDeclBeforeShiftedFirst(s: string, l: nat, p: nat)
    requires Matches(s) != [] && p == Matches(s)[0].index && l == LineStart(s, p)
    ensures forall q :: 0 <= q < p + |MarkerLine| ==> ClassDeclLength(InsertAt(s, l, MarkerLine)[q..]).None?
  {
    MatchesFromElement(s, 0, 0);
    forall q | 0 <= q < p + |MarkerLine|
      ensures ClassDeclLength(InsertAt(s, l, MarkerLine)[q..]).None?
    {
      NoDeclAtBeforeShifted(s, l, p, q);
    }
  }

  /** One position before the shifted first declaration: it lies before the
      inserted line, inside it, or after it, and in each case it starts no
      declaration. */
  lemma NoDeclAtBeforeShifted(s: string, l: nat, p: nat, q: nat)
    requires Matches(s) != [] && p == Matches(s)[0].index && l <= p
    requires q < p + |MarkerLine|
    ensures ClassDeclLength(InsertAt(s, l, MarkerLine)[q..]).None?
  {
    if q < l {
      MatchesFromNoneBefore(s, 0, q);
    } else if l + |MarkerLine| <= q {
      MatchesFromNoneBefore(s, 0, q - |MarkerLine|);
    }
    NoDeclBeforeShifted(s, l, p, q);
  }

  /** Before the shifted first declaration, the text with the marker line
      inserted at `l` starts no declaration. */
  lemma NoDeclBeforeShifted(s: string, l: nat, p: nat, q: nat)
    requires l <= p < |s| && q < p + |MarkerLine|
    requires q < l ==> ClassDeclLength(s[q..]).None?
    requires l + |MarkerLine| <= q ==> ClassDeclLength(s[q - |MarkerLine|..]).None?
    ensures ClassDeclLength(InsertAt(s, l, MarkerLine)[q..]).None?
  {
    var t := InsertAt(s, l, MarkerLine);
    if q < l {
      DeclLeftOfInsert(s, l, q);
    } else if q < l + |MarkerLine| {
      NoDeclInMarkerLine(s, l, q);
    } else {
      assert t[q..] == s[q - |MarkerLine|..];
    }
  }

  /** No declaration starts inside the inserted line: it holds no `c`. */
  lemma NoDeclInMarkerLine(s: string, l: nat, q: nat)
    requires l <= q < l + |MarkerLine| && l <= |s|
    ensures ClassDeclLength(InsertAt(s, l, MarkerLine)[q..]).None?
  {
    var t := InsertAt(s, l, MarkerLine);
    MarkerLineHasNoC();
    assert t[q] == MarkerLine[q - l];
    NoDeclWithoutC(t, q);
  }

  /** No declaration can start inside a marker line: it holds no `c`. */
  lemma MarkerLineHasNoC()
    ensures forall j :: 0 <= j < |MarkerLine| ==> MarkerLine[j] != 'c'
  {
  }

  /** Add mode is idempotent: its output already has a marker before the
      first declaration's line. */
  lemma AddMarkerIdempotent(s: string)
    ensures AddMarker(AddMarker(s)) == AddMarker(s)
  {
    var ms := Matches(s);
    if ms != [] {
      var l := LineStart(s, ms[0].index);
      if !ContainsMarker(s[..l]) {
        var t := InsertAt(s, l, MarkerLine);
        FirstMatchAfterInsert(s);
        InsertedMarker(s, l);
        MarkerBeforeLine(t, l, Matches(t)[0].index);
      }
    }
  }

  /** No marker occurrence straddles or precedes the inserted line when the
      original text has none. */
  lemma NoRunBeforeInsert(s: string, l: nat, k: nat)
    requires !ContainsMarker(s) && k < l <= |s| && (l == 0 || s[l - 1] == '\n')
    ensures MarkerRunEnd(InsertAt(s, l, MarkerLine), k).None?
  {
    var t := InsertAt(s, l, MarkerLine);
    assert !MarkerAt(t, k) by {
      if k + |Marker| <= l {
        assert t[k..k + |Marker|] == s[k..k + |Marker|];
        assert !MarkerAt(s, k);
      } else if k + |Marker| <= |t| {
        MarkerHasNoLineFeed();
        assert t[k..k + |Marker|][l - 1 - k] == t[l - 1] == '\n';
      }
    }
  }

  lemma NoRunAfterInsert(s: string, l: nat, k: nat)
    requires !ContainsMarker(s) && l <= |s| && l + |MarkerLine| <= k <= |s| + |MarkerLine|
    ensures MarkerRunEnd(InsertAt(s, l, MarkerLine), k).None?
  {
    var t := InsertAt(s, l, MarkerLine);
    var k' := k - |MarkerLine|;
    assert !MarkerAt(t, k) by {
      if k + |Marker| <= |t| {
        assert t[k..k + |Marker|] == s[k'..k' + |Marker|];
        assert !MarkerAt(s, k');
      }
    }
  }

  /** The inserted line is itself one whole marker run: the white space
      after the marker is the line feed and the indentation of the
      declaration line, which holds no further line feed. */
  lemma InsertedRun(s: string, l: nat, p: nat)
    requires IsLineStartOf(s, l, p) && s[p] == 'c'
    ensures MarkerRunEnd(InsertAt(s, l, MarkerLine), l) == Some(l + |MarkerLine|)
  {
    InsertedMarker(s, l);
    InsertedLineFeedIsLast(s, l, p);
  }

  /** The line feed of the inserted line is the last one in the white space
      that follows the inserted marker. */
  lemma InsertedLineFeedIsLast(s: string, l: nat, p: nat)
    requires IsLineStartOf(s, l, p) && s[p] == 'c'
    ensures var t := InsertAt(s, l, MarkerLine);
            LastIndexBelow(t, '\n', SpaceEnd(t, l + |Marker|)) == l + |Marker|
  {
    var t := InsertAt(s, l, MarkerLine);
    var w := SpaceEnd(t, l + |Marker|);
    assert w <= p + |MarkerLine| by {
      assert t[p + |MarkerLine|] == 'c';
    }
    assert t[l + |Marker|] == '\n' by {
      assert MarkerLine[|Marker|] == '\n';
    }
    forall j | l + |Marker| < j < w
      ensures t[j] != '\n'
    {
      NoLineFeedAfterInserted(s, l, p, j);
    }
  }

  /** Between the inserted line and the declaration there is no line feed. */
  lemma NoLineFeedAfterInserted(s: string, l: nat, p: nat, j: nat)
    requires IsLineStartOf(s, l, p) && l + |Marker| < j < p + |MarkerLine|
    ensures InsertAt(s, l, MarkerLine)[j] != '\n'
  {
    assert InsertAt(s, l, MarkerLine)[j] == s[j - |MarkerLine|];
  }

  /** One Replace pass deletes the inserted line and nothing else from a
      text that held no marker before the insertion. */
  lemma RemovePassUndoesInsert(s: string, l: nat, p: nat)
    requires !ContainsMarker(s) && IsLineStartOf(s, l, p) && s[p] == 'c'
    ensures RemovePass(InsertAt(s, l, MarkerLine)) == s
  {
    assert s[..l] + s[l..] == s;
    var t := InsertAt(s, l, MarkerLine);
    assert RemoveFrom(t, 0) == s[..l] + RemoveFrom(t, l) by {
      PassKeepsBeforeInsert(s, l);
    }
    assert RemoveFrom(t, l) == RemoveFrom(t, l + |MarkerLine|) by {
      InsertedRun(s, l, p);
    }
    assert RemoveFrom(t, l + |MarkerLine|) == s[l..] by {
      PassKeepsAfterInsert(s, l);
    }
  }

  /** The pass copies the text before the inserted line unchanged. */
  lemma PassKeepsBeforeInsert(s: string, l: nat)
    requires !ContainsMarker(s) && l <= |s| && (l == 0 || s[l - 1] == '\n')
    ensures RemoveFrom(InsertAt(s, l, MarkerLine), 0) == s[..l] + RemoveFrom(InsertAt(s, l, MarkerLine), l)
  {
    var t := InsertAt(s, l, MarkerLine);
    forall k: nat | 0 <= k < l ensures MarkerRunEnd(t, k).None? {
      NoRunBeforeInsert(s, l, k);
    }
    RemoveFromPlain(t, 0, l);
    assert t[0..l] == s[..l];
  }

  /** The pass copies the text after the inserted line unchanged. */
  lemma PassKeepsAfterInsert(s: string, l: nat)
    requires !ContainsMarker(s) && l <= |s|
    ensures RemoveFrom(InsertAt(s, l, MarkerLine), l + |MarkerLine|) == s[l..]
  {
    var t := InsertAt(s, l, MarkerLine);
    var after := l + |MarkerLine|;
    forall k: nat | after <= k < |t| ensures MarkerRunEnd(t, k).None? {
      NoRunAfterInsert(s, l, k);
    }
    RemoveFromPlain(t, after, |t|);
    assert RemoveFrom(t, |t|) == [];
    assert t[after..|t|] == s[l..];
  }

  /** Remove after add restores a text that held no marker: the only marker
      run is the inserted line, and every pass after the first finds none. */
  lemma RemoveAfterAdd(s: string)
    requires !ContainsMarker(s)
    ensures RemoveMarkers(AddMarker(s)) == s
  {
    var ms := Matches(s);
    if ms == [] {
      assert RemoveMarkers(s) == RemoveRepeated(s, 0);
    } else {
      var p := ms[0].index;
      var l := LineStart(s, p);
      MatchesFromElement(s, 0, 0);
      assert s[..|s|] == s;
      if ContainsMarker(s[..l]) {
        MarkerInLongerPrefix(s, l, |s|);
      }
      var t := InsertAt(s, l, MarkerLine);
      assert AddMarker(s) == t;
      RemovePassUndoesInsert(s, l, p);
      FirstMatchAfterInsert(s);
      if HasMarkerRun(s) {
        RunHasMarker(s);
      }
      RemoveRepeatedFixed(t, |Matches(t)|);
    }
  }

  /** After a first pass that leaves no marker run, further passes change nothing. */
  lemma {:induction false} RemoveRepeatedFixed(t: string, k: nat)
    requires k >= 1 && !HasMarkerRun(RemovePass(t))
    ensures RemoveRepeated(t, k) == RemovePass(t)
  {
    if k > 1 {
      RemoveRepeatedFixed(t, k - 1);
      RemovePassUnchanged(RemovePass(t));
    }
  }

  /** Remove mode with a declaration present deletes every marker run of its
      input and only the characters of those runs; it stops there unless the
      deletion joined pieces into a new run. */
  lemma RemoveMarkersDeletesRuns(s: string)
    requires Matches(s) != []
    ensures !HasMarkerRun(Surviving(s, 0)) ==> RemoveMarkers(s) == Surviving(s, 0)
    ensures RemoveRepeated(s, 1) == Surviving(s, 0)
  {
    RemovePassIsSurviving(s);
    if !HasMarkerRun(Surviving(s, 0)) {
      RemoveRepeatedFixed(s, |Matches(s)|);
    }
  }

  /** One add-mode iteration of ProcessFile's loop: at iteration `i` the
      text is the original (first iteration) or AddMarker's result (every
      later one); the stale index still lies inside it, and the iteration's
      prefix test and insertion leave AddMarker's result. */
  lemma AddStep(original: string, i: nat, content: string, found: Option<int>)
    requires i < |Matches(original)|
    requires content == if i == 0 then original else AddMarker(original)
    requires found == LastIndexOf(content, '\n', Matches(original)[i].index)
    ensures found.Some? && found.value + 1 <= |content|
    ensures AddMarker(original) == if ContainsMarker(content[..found.value + 1]) then content
                                   else InsertAt(content, found.value + 1, MarkerLine)
  {
    if i == 0 {
      AddStepFirst(original, found);
    } else {
      LaterMatchSeesMarker(original, i);
      MarkerBeforeFound(content, Matches(original)[i].index, found);
    }
  }

  /** The first add-mode iteration sees the original text: the line start
      it computes is the one AddMarker uses. */
  lemma AddStepFirst(original: string, found: Option<int>)
    requires Matches(original) != []
    requires found == LastIndexOf(original, '\n', Matches(original)[0].index)
    ensures found.Some? && found.value + 1 <= |original|
    ensures found.value + 1 == LineStart(original, Matches(original)[0].index)
  {
  }

  /** A marker before the line of `t[p]` is a marker before the position
      that `LastIndexOf('\n', p)` reports. */
  lemma MarkerBeforeFound(t: string, p: nat, found: Option<int>)
    requires p < |t| && ContainsMarker(t[..LineStart(t, p)]) && found == LastIndexOf(t, '\n', p)
    ensures found.Some? && found.value + 1 <= |t| && ContainsMarker(t[..found.value + 1])
  {
    FoundLineStart(t, p, found);
  }

  /** `LastIndexOf('\n', p) + 1` for a position inside the text is its line start. */
  lemma FoundLineStart(t: string, p: nat, found: Option<int>)
    requires p < |t| && found == LastIndexOf(t, '\n', p)
    ensures found.Some? && found.value + 1 == LineStart(t, p) <= |t|
  {
  }

  /** The loop of ProcessFile over the matches of the original text, with
      `content.LastIndexOf('\n', classIndex)` evaluated only in add mode,
      where the stale index always lies inside the text. Add mode runs
      AddMarker, remove mode RemoveMarkers. */
  method ProcessContent(original: string, add: bool) returns (content: string)
    ensures content == Toggle(original, add)
  {
    var matches := Matches(original);
    content := original;
    for i := 0 to |matches|
      invariant add ==> content == if i == 0 then original else AddMarker(original)
      invariant !add ==> content == RemoveRepeated(original, i)
    {
      var classIndex := matches[i].index;
      if add {
        var found := LastIndexOf(content, '\n', classIndex);
        AddStep(original, i, content, found);
        var lineStart := found.value + 1;
        var beforeClass := content[..lineStart];
        if !ContainsMarker(beforeClass) {
          content := InsertAt(content, lineStart, MarkerLine);
        }
      } else {
        content := RemovePass(content);
      }
    }
  }

  /** In remove mode, the `i`-th iteration of ProcessFile as written calls
      `content.LastIndexOf('\n', classIndex)` with an index found in the
      original text on a text that the earlier Replace passes have already
      shortened; .NET throws when the index is at or past its end. Both are
      counted in UTF-16 code units, as .NET counts them. */
  predicate ThrowsAt(original: string, i: nat): (r: bool)
    requires i < |Matches(original)|
    ensures r ==> 0 < i && HasMarkerRun(original)
  {
    OriginalNeverThrows(original, i);
    LastIndexOfThrows(RemoveRepeated(original, i), Utf16Length(original[..Matches(original)[i].index]))
  }

  /** The first iteration, and every iteration on a text without marker
      runs, searches the original text from one of its own positions, which
      never throws. */
  lemma OriginalNeverThrows(original: string, i: nat)
    requires i < |Matches(original)|
    ensures i == 0 || !HasMarkerRun(original) ==>
              RemoveRepeated(original, i) == original &&
              !LastIndexOfThrows(original, Utf16Length(original[..Matches(original)[i].index]))
  {
    if !HasMarkerRun(original) {
      RemoveRepeatedNoRun(original, i);
    }
    Utf16PrefixShorter(original, Matches(original)[i].index);
  }

  /** Remove mode as written throws at some iteration; that takes at least
      two declarations and a marker run for the first pass to delete. */
  predicate StaleIndexThrows(original: string): (r: bool)
    ensures r ==> 2 <= |Matches(original)| && HasMarkerRun(original)
  {
    exists i | 0 <= i < |Matches(original)| :: ThrowsAt(original, i)
  }

  /** What ProcessFile as written makes of a text in a mode: None when its
      loop throws, which only remove mode can do; otherwise Toggle's result. */
  function ToggleAsWritten(s: string, add: bool): Option<string> {
    if !add && StaleIndexThrows(s) then None else Some(Toggle(s, add))
  }

  /** A declaration at `q` keeps at least its 17 characters, so at least
      17 UTF-16 code units, after the code units before it. */
  lemma DeclLeavesUnits(t: string, q: nat)
    requires q + MinDeclLength <= |t|
    ensures Utf16Length(t[..q]) + MinDeclLength <= Utf16Length(t)
  {
    assert t == t[..q] + t[q..];
    Utf16Concat(t[..q], t[q..]);
  }

  /** On a text without markers that holds a declaration, add mode inserts
      the marker line, which adds 14 UTF-16 code units, and one Replace pass
      deletes it again. */
  lemma AddThenPass(s: string)
    requires !ContainsMarker(s) && Matches(s) != []
    ensures Utf16Length(AddMarker(s)) == Utf16Length(s) + |MarkerLine|
    ensures RemovePass(AddMarker(s)) == s && !HasMarkerRun(s)
  {
    var p := Matches(s)[0].index;
    var l := LineStart(s, p);
    MatchesFromElement(s, 0, 0);
    assert s[..|s|] == s;
    if ContainsMarker(s[..l]) {
      MarkerInLongerPrefix(s, l, |s|);
    }
    RemovePassUndoesInsert(s, l, p);
    if HasMarkerRun(s) {
      RunHasMarker(s);
    }
    InsertUnits(s, l, MarkerLine);
    MarkerLineUnits();
  }

  /** The round trip as the program runs it: on a text without markers,
      remove mode as written does not throw on add mode's output, whose
      every stale index stays inside the text the passes leave, and it gives
      the text back. */
  lemma RoundTripAsWritten(s: string)
    requires !ContainsMarker(s)
    ensures ToggleAsWritten(AddMarker(s), false) == Some(s)
  {
    RemoveAfterAdd(s);
    var t := AddMarker(s);
    if Matches(s) != [] {
      AddThenPass(s);
      forall i | 0 <= i < |Matches(t)| ensures !ThrowsAt(t, i) {
        DeclLeavesUnits(t, Matches(t)[i].index);
        if i > 0 {
          RemoveRepeatedFixed(t, i);
        }
      }
    }
  }

  /** One more iteration that did not throw. A lemma of its own so that the
      loop below does not unfold `ThrowsAt` under the quantifier of its
      invariant, which the solver handles several times more slowly. */
  lemma NoThrowSoFar(original: string, i: nat)
    requires i < |Matches(original)| && !ThrowsAt(original, i)
    requires forall j | 0 <= j < i :: !ThrowsAt(original, j)
    ensures forall j | 0 <= j < i + 1 :: !ThrowsAt(original, j)
  {
  }

  /** Add mode only inserts, so it never shortens the text in UTF-16 units. */
  lemma AddMarkerNotShorter(s: string)
    ensures Utf16Length(s) <= Utf16Length(AddMarker(s))
  {
    var ms := Matches(s);
    if ms != [] {
      var l := LineStart(s, ms[0].index);
      if !ContainsMarker(s[..l]) {
        InsertUnits(s, l, MarkerLine);
      }
    }
  }

  /** In add mode the stale index of every iteration, counted in UTF-16
      units, lies inside the text, which has only grown. */
  lemma AddNeverThrows(original: string, i: nat, content: string)
    requires i < |Matches(original)|
    requires content == if i == 0 then original else AddMarker(original)
    ensures !LastIndexOfThrows(content, Utf16Length(original[..Matches(original)[i].index]))
  {
    MatchesFromElement(original, 0, i);
    Utf16PrefixShorter(original, Matches(original)[i].index);
    AddMarkerNotShorter(original);
  }

  /** ProcessFile exactly as written: `content.LastIndexOf('\n', classIndex)`
      is evaluated before the mode is looked at, so remove mode can throw
      (None). The exception is decided in UTF-16 units; the line start it
      returns is only used in add mode, where it is computed on the model's
      positions. Add mode agrees with ProcessContent. */
  method ProcessContentAsWritten(original: string, add: bool) returns (result: Option<string>)
    ensures add ==> result == Some(AddMarker(original))
    ensures !add ==> result == if StaleIndexThrows(original) then None else Some(RemoveMarkers(original))
    ensures result == ToggleAsWritten(original, add)
  {
    var matches := Matches(original);
    var content := original;
    for i := 0 to |matches|
      invariant add ==> content == if i == 0 then original else AddMarker(original)
      invariant !add ==> content == RemoveRepeated(original, i)
      invariant !add ==> forall j | 0 <= j < i :: !ThrowsAt(original, j)
    {
      var classIndex := matches[i].index;
      if add {
        AddNeverThrows(original, i, content);
      }
      if LastIndexOfThrows(content, Utf16Length(original[..classIndex])) {
        assert ThrowsAt(original, i);
        return None;
      }
      if add {
        var found := LastIndexOf(content, '\n', classIndex);
        AddStep(original, i, content, found);
        var lineStart := found.value + 1;
        var beforeClass := content[..lineStart];
        if !ContainsMarker(beforeClass) {
          content := InsertAt(content, lineStart, MarkerLine);
        }
      } else {
        NoThrowSoFar(original, i);
        content := RemovePass(content);
      }
    }
    return Some(content);
  }

  /** A marker before the line of the first declaration: add mode keeps the text. */
  lemma MarkedLineKept(s: string, l: nat, m: nat)
    requires Matches(s) != [] && IsLineStartOf(s, l, Matches(s)[0].index) && MarkerAt(s[..l], m)
    ensures AddMarker(s) == s
  {
    AddMarkerEffect(s, l);
  }

  /** A text that starts with a declaration gets the marker line on top. */
  lemma DeclFirstGetsMarker(s: string, n: nat)
    requires ClassDeclLength(s) == Some(n)
    ensures AddMarker(s) == MarkerLine + s
  {
    assert s[0..] == s && s[..0] == [];
    MatchesFromFound(s, 0, n);
    assert LineStart(s, 0) == 0;
  }

  /** With one declaration, remove mode is one Replace pass. */
  lemma SingleDeclOnePass(s: string)
    requires |Matches(s)| == 1
    ensures RemoveMarkers(s) == RemovePass(s)
  {
    assert RemoveRepeated(s, 0) == s;
  }
}

=== FILE: tool.dfy ===
/** The editor window SkipHotloadEditorTool as far as it decides what
    happens to files: the list of source files, the set of files reported
    as changed, the per-file mode choice of the auto button, and the batch
    loops that run ProcessFile over the list.

    The directory is a map from path to content. ProcessFile throws when a
    listed path is missing (`File.ReadAllText`) and when its remove-mode
    loop passes `LastIndexOf` a stale index. Neither batch loop catches
    anything, so the batch stops there with the files before it already
    written. */
module HotloadTool {
  import opened Wrappers
  import opened Toggler

  /** What the file system holds: the contents by path, and the paths
      written so far, in order. */
  datatype Disk = Disk(files: map<string, string>, writes: seq<string>)

  /** Where a batch ended: the disk, and whether ProcessFile threw. */
  datatype Outcome = Outcome(disk: Disk, failed: bool)

  /** How a batch picks the mode of each file: one mode for all (the add and
      remove buttons), or add unless the file is in the changed set (the
      auto button). */
  datatype Mode = All(add: bool) | Auto(changed: set<string>)

  function AddFor(mode: Mode, path: string): bool {
    match mode
    case All(add) => add
    case Auto(changed) => path !in changed
  }

  /** ProcessFile's content transformation in a mode; None when it throws.
      The tool's is ToggleAsWritten; Corrected is the one that never throws.
      The batch functions and lemmas below take it as a parameter `edit` and
      need nothing of it unless a lemma says so. */
  type Edit = (string, bool) -> Option<string>

  /** The corrected transformation (ProcessContent): the line start is only
      computed in add mode, so nothing throws. */
  function Corrected(s: string, add: bool): Option<string> {
    Some(Toggle(s, add))
  }

  /** A transformation that never throws. */
  ghost predicate Total(edit: Edit) {
    forall s, add :: edit(s, add).Some?
  }

  lemma CorrectedIsTotal()
    ensures Total(Corrected)
  {
  }

  /** The transformation as written throws only where the corrected one
      differs from it: it agrees with Corrected whenever it does not throw,
      and in add mode it never throws. */
  lemma AsWrittenAgrees(s: string, add: bool)
    ensures ToggleAsWritten(s, add).Some? ==> ToggleAsWritten(s, add) == Corrected(s, add)
    ensures ToggleAsWritten(s, add).None? <==> !add && StaleIndexThrows(s)
  {
  }

  /** ProcessFile on a disk throws (None) when the file is missing or the
      transformation throws on its content; otherwise the transformed
      content is written back exactly when it differs from what was read,
      and no other file changes. */
  function FileStep(edit: Edit, d: Disk, path: string, add: bool): (r: Option<Disk>)
    ensures r.None? <==> path !in d.files || edit(d.files[path], add).None?
    ensures r.Some? ==> r.value.files.Keys == d.files.Keys
    ensures r.Some? ==> r.value.files[path] == edit(d.files[path], add).value
    ensures r.Some? ==> forall p :: p in d.files && p != path ==> r.value.files[p] == d.files[p]
    ensures r.Some? ==> (r.value.writes == d.writes + [path] <==> edit(d.files[path], add).value != d.files[path])
    ensures r.Some? ==> (r.value.writes == d.writes <==> edit(d.files[path], add).value == d.files[path])
  {
    if path !in d.files then None
    else
      match edit(d.files[path], add)
      case None => None
      case Some(content) =>
        if content != d.files[path] then Some(Disk(d.files[path := content], d.writes + [path]))
        else Some(d)
  }

  /** The batch over `paths`, one ProcessFile after another, stopping at the
      first one that throws. */
  function RunBatch(edit: Edit, d: Disk, paths: seq<string>, mode: Mode): (o: Outcome)
    ensures o.disk.files.Keys == d.files.Keys
    ensures d.writes <= o.disk.writes
    decreases |paths|
  {
    if paths == [] then Outcome(d, false)
    else
      var o := RunBatch(edit, d, paths[..|paths| - 1], mode);
      var path := paths[|paths| - 1];
      if o.failed then o
      else
        match FileStep(edit, o.disk, path, AddFor(mode, path))
        case None => Outcome(o.disk, true)
        case Some(d') => Outcome(d', false)
  }

  /** The batch over one more path: the batch so far, then that file's step. */
  lemma BatchStep(edit: Edit, d: Disk, paths: seq<string>, i: nat, mode: Mode)
    requires i < |paths|
    ensures var o := RunBatch(edit, d, paths[..i], mode);
            RunBatch(edit, d, paths[..i + 1], mode) ==
              if o.failed then o
              else match FileStep(edit, o.disk, paths[i], AddFor(mode, paths[i]))
                case None => Outcome(o.disk, true)
                case Some(d') => Outcome(d', false)
  {
    assert paths[..i + 1][..i] == paths[..i];
  }

  /** After a failure the rest of the list is not looked at. */
  lemma {:induction false} FailureIsFinal(edit: Edit, d: Disk, paths: seq<string>, n: nat, mode: Mode)
    requires n <= |paths| && RunBatch(edit, d, paths[..n], mode).failed
    ensures RunBatch(edit, d, paths, mode) == RunBatch(edit, d, paths[..n], mode)
    decreases |paths| - n
  {
    if n < |paths| {
      assert paths[..n + 1][..n] == paths[..n];
      FailureIsFinal(edit, d, paths, n + 1, mode);
    } else {
      assert paths[..n] == paths;
    }
  }

  /** With a transformation that never throws, a batch fails exactly when
      some listed file is missing. */
  lemma {:induction false} BatchFailsIffMissing(edit: Edit, d: Disk, paths: seq<string>, mode: Mode)
    requires Total(edit)
    ensures RunBatch(edit, d, paths, mode).failed <==> exists i :: 0 <= i < |paths| && paths[i] !in d.files
    decreases |paths|
  {
    if paths != [] {
      var init := paths[..|paths| - 1];
      var path := paths[|paths| - 1];
      assert RunBatch(edit, d, paths, mode).failed <==>
             RunBatch(edit, d, init, mode).failed || path !in d.files by {
        if !RunBatch(edit, d, init, mode).failed && path in d.files {
          var o := RunBatch(edit, d, init, mode);
          assert edit(o.disk.files[path], AddFor(mode, path)).Some?;
        }
      }
      BatchFailsIffMissing(edit, d, init, mode);
      MissingSplit(d.files, paths, init);
    }
  }

  lemma MissingSplit(files: map<string, string>, paths: seq<string>, init: seq<string>)
    requires paths != [] && init == paths[..|paths| - 1]
    ensures (exists i :: 0 <= i < |paths| && paths[i] !in files) <==>
            (exists i :: 0 <= i < |init| && init[i] !in files) || paths[|paths| - 1] !in files
  {
    if exists i :: 0 <= i < |init| && init[i] !in files {
      var i :| 0 <= i < |init| && init[i] !in files;
      assert paths[i] == init[i];
    }
    if exists i :: 0 <= i < |paths| && paths[i] !in files {
      var i :| 0 <= i < |paths| && paths[i] !in files;
      if i < |init| {
        assert init[i] == paths[i];
      }
    }
  }

  /** ProcessFile throws on `p` in its mode, given the content it finds. */
  predicate Throws(edit: Edit, files: map<string, string>, p: string, mode: Mode) {
    p !in files || edit(files[p], AddFor(mode, p)).None?
  }

  /** A file the batch does not list keeps its content. */
  lemma {:induction false} UnlistedUnchanged(edit: Edit, d: Disk, paths: seq<string>, mode: Mode, p: string)
    requires p in d.files && p !in paths
    ensures RunBatch(edit, d, paths, mode).disk.files[p] == d.files[p]
    decreases |paths|
  {
    if paths != [] {
      var init := paths[..|paths| - 1];
      UnlistedUnchanged(edit, d, init, mode, p);
    }
  }

  /** With no path listed twice, every file is still as it was on disk when
      its turn comes, so a batch fails exactly when ProcessFile throws on
      some listed file's original content: a missing file, or a remove-mode
      file whose stale index falls past its shortened text. */
  lemma {:induction false} BatchFailsIffThrows(edit: Edit, d: Disk, paths: seq<string>, mode: Mode)
    requires forall i, j :: 0 <= i < j < |paths| ==> paths[i] != paths[j]
    ensures RunBatch(edit, d, paths, mode).failed <==>
              exists i :: 0 <= i < |paths| && Throws(edit, d.files, paths[i], mode)
    decreases |paths|
  {
    if paths != [] {
      var init := paths[..|paths| - 1];
      var path := paths[|paths| - 1];
      BatchFailsIffThrows(edit, d, init, mode);
      assert RunBatch(edit, d, paths, mode).failed <==>
             RunBatch(edit, d, init, mode).failed || Throws(edit, d.files, path, mode) by {
        if !RunBatch(edit, d, init, mode).failed && path in d.files {
          UnlistedUnchanged(edit, d, init, mode, path);
        }
      }
      ThrowsSplit(edit, d.files, paths, init, mode);
    }
  }

  lemma ThrowsSplit(edit: Edit, files: map<string, string>, paths: seq<string>, init: seq<string>, mode: Mode)
    requires paths != [] && init == paths[..|paths| - 1]
    ensures (exists i :: 0 <= i < |paths| && Throws(edit, files, paths[i], mode)) <==>
            (exists i :: 0 <= i < |init| && Throws(edit, files, init[i], mode)) ||
            Throws(edit, files, paths[|paths| - 1], mode)
  {
    if exists i :: 0 <= i < |init| && Throws(edit, files, init[i], mode) {
      var i :| 0 <= i < |init| && Throws(edit, files, init[i], mode);
      assert paths[i] == init[i];
    }
    if exists i :: 0 <= i < |paths| && Throws(edit, files, paths[i], mode) {
      var i :| 0 <= i < |paths| && Throws(edit, files, paths[i], mode);
      if i < |init| {
        assert init[i] == paths[i];
      }
    }
  }

  /** A one-file batch on a file that throws fails and writes nothing. */
  lemma ThrowingFileStops(edit: Edit, d: Disk, p: string, mode: Mode)
    requires Throws(edit, d.files, p, mode)
    ensures RunBatch(edit, d, [p], mode) == Outcome(d, true)
  {
    assert [p][..0] == [];
  }

  /** A file that the batch did not write keeps its content. */
  lemma {:induction false} UnwrittenUnchanged(edit: Edit, d: Disk, paths: seq<string>, mode: Mode, p: string)
    requires p in d.files
    ensures var o := RunBatch(edit, d, paths, mode);
            p !in o.disk.writes[|d.writes|..] ==> p in o.disk.files && o.disk.files[p] == d.files[p]
    decreases |paths|
  {
    if paths != [] {
      var init := paths[..|paths| - 1];
      var o := RunBatch(edit, d, init, mode);
      UnwrittenUnchanged(edit, d, init, mode, p);
      var o' := RunBatch(edit, d, paths, mode);
      if p !in o'.disk.writes[|d.writes|..] && !o.failed {
        var path := paths[|paths| - 1];
        if path in o.disk.files {
          var add := AddFor(mode, path);
          if edit(o.disk.files[path], add).Some? && edit(o.disk.files[path], add).value != o.disk.files[path] {
            assert o'.disk.writes == o.disk.writes + [path];
            assert o'.disk.writes[|d.writes|..] == o.disk.writes[|d.writes|..] + [path];
          }
        }
      }
    }
  }

  /** With no path listed twice and no listed file on which ProcessFile
      throws, the batch applies each file's mode to it exactly once and
      leaves every unlisted file alone: under the auto button, files in the
      changed set lose their markers and all others get one. */
  lemma {:induction false} BatchAppliesModes(edit: Edit, d: Disk, paths: seq<string>, mode: Mode)
    requires forall p :: p in paths ==> p in d.files && edit(d.files[p], AddFor(mode, p)).Some?
    requires forall i, j :: 0 <= i < j < |paths| ==> paths[i] != paths[j]
    ensures !RunBatch(edit, d, paths, mode).failed
    ensures forall p :: p in d.files ==>
              RunBatch(edit, d, paths, mode).disk.files[p] ==
                if p in paths then edit(d.files[p], AddFor(mode, p)).value else d.files[p]
    decreases |paths|
  {
    if paths != [] {
      var init := paths[..|paths| - 1];
      var path := paths[|paths| - 1];
      BatchAppliesModes(edit, d, init, mode);
      assert path !in init;
      assert !Throws(edit, d.files, path, mode);
      forall p | p in d.files
        ensures p in paths <==> p in init || p == path
      {
        if p in paths {
          var i :| 0 <= i < |paths| && paths[i] == p;
          if i < |init| {
            assert init[i] == p;
          }
        }
      }
    }
  }

  /** Every file of `paths` is present and a fixed point of add mode. */
  ghost predicate AddFixed(edit: Edit, files: map<string, string>, paths: seq<string>) {
    forall i :: 0 <= i < |paths| ==> paths[i] in files && edit(files[paths[i]], true) == Some(files[paths[i]])
  }

  /** Add mode never throws, and applied to its own result it changes nothing. */
  ghost predicate AddIdempotent(edit: Edit) {
    forall s :: edit(s, true).Some? && edit(edit(s, true).value, true) == edit(s, true)
  }

  /** The tool's add mode is idempotent, as written and corrected. */
  lemma ToggleAddIdempotent()
    ensures AddIdempotent(ToggleAsWritten)
    ensures AddIdempotent(Corrected)
  {
    forall s ensures ToggleAsWritten(ToggleAsWritten(s, true).value, true) == ToggleAsWritten(s, true) {
      AddMarkerIdempotent(s);
    }
    forall s ensures Corrected(Corrected(s, true).value, true) == Corrected(s, true) {
      AddMarkerIdempotent(s);
    }
  }

  /** Replacing one file by a fixed point of add mode keeps the others fixed. */
  lemma AddFixedUpdate(edit: Edit, before: map<string, string>, paths: seq<string>, marked: string)
    requires paths != [] && AddFixed(edit, before, paths[..|paths| - 1]) && edit(marked, true) == Some(marked)
    ensures AddFixed(edit, before[paths[|paths| - 1] := marked], paths)
  {
    var init := paths[..|paths| - 1];
    var after := before[paths[|paths| - 1] := marked];
    forall i | 0 <= i < |paths|
      ensures paths[i] in after && edit(after[paths[i]], true) == Some(after[paths[i]])
    {
      if i < |init| {
        assert paths[i] == init[i];
      }
    }
  }

  /** After an add batch that did not fail, every listed file is a fixed
      point of add mode, when add mode is idempotent. */
  lemma {:induction false} AddBatchFixed(edit: Edit, d: Disk, paths: seq<string>)
    requires AddIdempotent(edit) && !RunBatch(edit, d, paths, All(true)).failed
    ensures AddFixed(edit, RunBatch(edit, d, paths, All(true)).disk.files, paths)
    decreases |paths|
  {
    if paths != [] {
      var init := paths[..|paths| - 1];
      var path := paths[|paths| - 1];
      AddBatchFixed(edit, d, init);
      var before := RunBatch(edit, d, init, All(true)).disk.files;
      var marked := edit(before[path], true).value;
      assert RunBatch(edit, d, paths, All(true)).disk.files == before[path := marked];
      AddFixedUpdate(edit, before, paths, marked);
    }
  }

  /** A batch in which every file is already a fixed point of its mode
      writes nothing and changes nothing. */
  lemma {:induction false} FixedBatchWritesNothing(edit: Edit, d: Disk, paths: seq<string>, mode: Mode)
    requires forall i :: 0 <= i < |paths| ==>
               paths[i] in d.files && edit(d.files[paths[i]], AddFor(mode, paths[i])) == Some(d.files[paths[i]])
    ensures RunBatch(edit, d, paths, mode) == Outcome(d, false)
    decreases |paths|
  {
    if paths != [] {
      FixedBatchWritesNothing(edit, d, paths[..|paths| - 1], mode);
    }
  }

  /** Pressing the add button twice: the second press writes nothing. */
  lemma AddTwiceWritesOnce(d: Disk, paths: seq<string>)
    requires !RunBatch(ToggleAsWritten, d, paths, All(true)).failed
    ensures var d1 := RunBatch(ToggleAsWritten, d, paths, All(true)).disk;
            RunBatch(ToggleAsWritten, d1, paths, All(true)) == Outcome(d1, false)
  {
    ToggleAddIdempotent();
    AddBatchFixed(ToggleAsWritten, d, paths);
    FixedBatchWritesNothing(ToggleAsWritten, RunBatch(ToggleAsWritten, d, paths, All(true)).disk, paths, All(true));
  }

  /** The file system the tool reads and writes. */
  class FileSystem {
    var files: map<string, string>
    var writes: seq<string>

    constructor (contents: map<string, string>)
      ensures files == contents && writes == []
    {
      files := contents;
      writes := [];
    }

    function State(): Disk
      reads this
    {
      Disk(files, writes)
    }
  }

  /** `Directory.GetFiles` when the directory exists, and the cleared list when it does not. */
  function Listed(listing: Option<seq<string>>): seq<string> {
    if listing.Some? then listing.value else []
  }

  class SkipHotloadTool {
    var csFiles: seq<string>
    var changedFiles: set<string>
    const fs: FileSystem

    /** The window starts with an empty change set and lists the directory. */
    constructor (fs: FileSystem, listing: Option<seq<string>>)
      ensures this.fs == fs && csFiles == Listed(listing) && changedFiles == {}
    {
      this.fs := fs;
      csFiles := Listed(listing);
      changedFiles := {};
    }

    /** The watcher callback records the changed file; nothing ever removes
        an entry from the set. */
    method OnFileChanged(relativePath: string)
      modifies this
      ensures changedFiles == old(changedFiles) + {relativePath}
      ensures old(changedFiles) <= changedFiles && relativePath in changedFiles
      ensures csFiles == old(csFiles)
    {
      changedFiles := changedFiles + {relativePath};
    }

    /** The list is cleared and, when the directory exists, replaced by its listing. */
    method RefreshFileList(listing: Option<seq<string>>)
      modifies this
      ensures csFiles == Listed(listing) && changedFiles == old(changedFiles)
    {
      csFiles := [];
      if listing.Some? {
        csFiles := listing.value;
      }
    }

    /** One file, as written: false when it throws, because the file cannot
        be read or the remove-mode loop hits a stale index; otherwise its
        content is transformed and written back only if it changed. */
    method ProcessFile(filePath: string, add: bool) returns (ok: bool)
      modifies fs
      ensures ok <==> filePath in old(fs.files) && ToggleAsWritten(old(fs.files)[filePath], add).Some?
      ensures FileStep(ToggleAsWritten, old(fs.State()), filePath, add) == if ok then Some(fs.State()) else None
      ensures !ok ==> fs.State() == old(fs.State())
    {
      if filePath !in fs.files {
        return false;
      }
      var originalContent := fs.files[filePath];
      var result := ProcessContentAsWritten(originalContent, add);
      if result.None? {
        return false;
      }
      var content := result.value;
      if content != originalContent {
        fs.files := fs.files[filePath := content];
        fs.writes := fs.writes + [filePath];
      }
      return true;
    }

    /** The add and remove buttons: every listed file in one mode, stopping
        at the first file on which ProcessFile throws. */
    method ProcessAllFiles(add: bool) returns (ok: bool)
      modifies fs
      ensures RunBatch(ToggleAsWritten, old(fs.State()), csFiles, All(add)) == Outcome(fs.State(), !ok)
    {
      ok := RunFiles(All(add));
    }

    /** The auto button: files in the changed set lose their markers, all
        others get one. */
    method ApplyAutoSkipHotload() returns (ok: bool)
      modifies fs
      ensures RunBatch(ToggleAsWritten, old(fs.State()), csFiles, Auto(changedFiles)) == Outcome(fs.State(), !ok)
    {
      ok := RunFiles(Auto(changedFiles));
    }

    /** The loop both buttons share. */
    method RunFiles(mode: Mode) returns (ok: bool)
      modifies fs
      ensures RunBatch(ToggleAsWritten, old(fs.State()), csFiles, mode) == Outcome(fs.State(), !ok)
    {
      ghost var start := fs.State();
      for i := 0 to |csFiles|
        invariant RunBatch(ToggleAsWritten, start, csFiles[..i], mode) == Outcome(fs.State(), false)
      {
        var file := csFiles[i];
        var fileOk := ProcessFile(file, AddFor(mode, file));
        assert RunBatch(ToggleAsWritten, start, csFiles[..i + 1], mode) == Outcome(fs.State(), !fileOk) by {
          BatchStep(ToggleAsWritten, start, csFiles, i, mode);
        }
        if !fileOk {
          FailureIsFinal(ToggleAsWritten, start, csFiles, i + 1, mode);
          return false;
        }
      }
      assert csFiles[..|csFiles|] == csFiles;
      return true;
    }
  }
}

=== FILE: wrappers.dfy ===
/** The optional-value datatype used for results that may be absent, such as
    a regular-expression match that does not occur or a .NET call that throws. */
module Wrappers {

  datatype Option<+T> = None | Some(value: T)
}
